=== FILE: README.md ===
# RIPv2 router stack in Dafny

This project models the core of a small user-space router written in C on
top of a raw Ethernet interface. The model covers five parts:

- The RIPv2 route table. It has 25 slots for routes, each with a countdown
  timer (`ripv2_route_table.c`). Its operations are add, remove, get, find by
  subnet and mask, longest-prefix lookup, removal of expired routes, the
  smallest time left, and reading the table from its text file.
- The RIPv2 server loop (`ripv2_server.c`, the `while (1)` body). Each turn
  calls `udp_recv` with the smallest time left as its timeout. `udp_recv`
  does not honour that timeout (see `Udp.RecvLoop` under "## Left out"),
  so a turn ends only when a datagram for the server's port arrives or the
  receive fails. The turn then sweeps expired routes, and answers a REQUEST
  (the whole table, or the listed entries with their metrics) or learns
  the routes of a RESPONSE.
- The pure parts of the IPv4 layer (`ipv4.c`):
  - dotted-quad text in both directions;
  - the RFC 791 header and its one's-complement checksum;
  - the multicast test;
  - the decisions `ipv4_send` makes (route, next hop, ARP or the multicast
    MAC, return value);
  - the frame filter and copy rule of `ipv4_recv`.
- The UDP layer (`udp.c`): the RFC 768 header `udp_send` builds, and the
  destination-port filter and copy rule of `udp_recv`.
- The ARP resolver (`arp.c`): the RFC 826 request, and the listen loop with
  its single re-broadcast after the first timeout.

I/O is turned into parameters:

- link events become a sequence of received frames and timeouts;
- what `arp_resolve` and `eth_send` return becomes explicit arguments;
- timers become countdown values;
- files become sequences of lines.

The model follows the C code where the code and its documentation
disagree:

- A RESPONSE entry from a different gateway with a smaller metric only
  switches the stored gateway. The stored metric is left as it was
  (`ripv2_server.c:209-212`). Section 3.9.2 of RFC 2453 would also adopt
  the new metric. `RipServer.BetterPathKeepsMetric` states the code's
  behaviour.
- Entries of a RESPONSE are counted against the table with `+ htonl(1)` on
  the raw network-order metric. On a little-endian host, for every metric
  the server does not skip, this is the plain successor
  (`RipMessage.NetIncrementIsSuccessor`).
- `ntohl` on the 16-bit family field truncates to 0 on such a host, so a
  learned route's family is 0 (`RipMessage.LearnedFamilyIsZero`).
- `is_multicast` loops with an uninitialised counter (`ipv4.c:261`). The
  model reads the loop as starting at octet 0. `ipv4_recv` uses it to
  accept frames for a multicast destination (`ipv4.c:316`), so the
  server's receive path depends on that reading. `ipv4_send` does not:
  it tests multicast with `ipv4_route_lookup`.

`ipv4_route_lookup` and the IPv4 route table it belongs to are not part of
this model. `Ipv4.Send` and `Ipv4.MulticastRange` take it to compute the
same prefix test as `ripv2_route_lookup`, which `Prefix.Match` models.

Modules:

| module | file | models |
|---|---|---|
| `Wire` | wire.dfy | octets, 16/32-bit big-endian fields, byte-order swaps, `Option` |
| `Checksum` | checksum.dfy | `ipv4_checksum` |
| `Prefix` | prefix.dfy | `ripv2_switch_lookup` and `ripv2_route_lookup` |
| `Ipv4Text` | ipv4_text.dfy | `ipv4_addr_str`, `ipv4_str_addr`, `%d` and `atoi` scanning |
| `Ipv4` | ipv4.dfy | header, `is_multicast`, `ipv4_send`, `ipv4_recv` |
| `Udp` | udp.dfy | `udp_send`, `udp_recv` |
| `Arp` | arp.dfy | `arp_resolve` |
| `RipTable` | rip_table.dfy | the table and timer operations of ripv2_route_table.c |
| `RipTableText` | rip_table_text.dfy | `ripv2_route_read`, `ripv2_route_table_read`, the line printer |
| `RipMessage` | rip_message.dfy | the RIPv2 message layout of ripv2.h and the server's arithmetic on it |
| `RipServer` | rip_server.dfy | one iteration of the server loop |

## Model

| member | source | states |
|---|---|---|
| Prefix.OnesInCountsBits | ripv2_route_table.c:64-70 | the shift-and-count loop of `ripv2_switch_lookup` yields exactly the number of one bits of the octet, at most 8 |
| Prefix.MatchFrom | ripv2_route_table.c:100-108 | from octet `i` on: -1 exactly when some masked octet differs from the subnet, otherwise the total one bits of the remaining mask octets |
| Prefix.Match | ripv2_route_table.c:96-110 | `ripv2_route_lookup`: -1 exactly when the address is outside the subnet, otherwise the mask's one-bit count, between 0 and 32 |
| RipTable.FirstFreeFrom | ripv2_route_table.c:339-345 | the first empty slot at or after `k`, or -1 exactly when every slot from `k` on is occupied |
| RipTable.Add | ripv2_route_table.c:333-349 | -1 exactly when the table is full, leaving it unchanged; otherwise the lowest empty slot now holds the route and no other slot changes |
| RipTable.Remove | ripv2_route_table.c:352-359 | an index in 0..24 empties that slot and returns its old content; any other index changes nothing and returns nothing |
| RipTable.Get | ripv2_route_table.c:383-391 | an index in 0..24 gives the content of that slot, so a route exactly when the slot holds one; any other index gives nothing |
| RipTable.AddThenRemove | ripv2_route_table.c:333-391 | after a successful add, `get` at the returned index gives the route, and `remove` there restores the original table and hands the route back |
| RipTable.FindFrom | ripv2_route_table.c:399-406 | the first slot at or after `k` whose route has the subnet and mask, or -1 exactly when none has |
| RipTable.Find | ripv2_route_table.c:393-410 | -1 exactly when no slot holds a route with that subnet and mask; otherwise an in-range slot that does |
| RipTable.FindAfterAdd | ripv2_route_table.c:333-410 | a route added under a new key is found at the index `add` returned |
| RipTable.LookupFrom | ripv2_route_table.c:368-377 | the scan keeps the earliest slot of strictly greatest prefix length seen so far, or -1 if no slot matched |
| RipTable.Lookup | ripv2_route_table.c:362-381 | no route exactly when no slot matches the address; otherwise a matching route whose prefix is at least as long as every other match, the earliest on ties |
| RipTable.LookupLongestWins | ripv2_route_table.c:362-381 | a slot whose prefix is strictly longer than every other slot's match is the one returned |
| RipTable.LookupPrefersLongerPrefix | ripv2_route_table.c:372-375 | with 10.0.0.0/8 in slot 0 and 10.1.0.0/16 in slot 1, 10.1.2.3 resolves to the /16 route |
| RipTable.Swept | ripv2_route_table.c:584-600 | expired slots (timer at 0 or metric infinite) are emptied, the others are kept, and no occupied slot of the result is expired |
| RipTable.SweptIdempotent | ripv2_route_table.c:589-597 | sweeping twice with the same timers is the same as sweeping once |
| RipTable.RemoveExpired | ripv2_route_table.c:584-600 | the loop computes the sweep, and the number removed plus the routes kept is the number of routes before |
| RipTable.TimeLeftFrom | ripv2_route_table.c:605-611 | the minimum of the occupied slots' timers from `i` on, together with `cur` |
| RipTable.TimeLeft | ripv2_route_table.c:602-613 | -1 exactly when the table is empty; otherwise the timer of some occupied slot that is no larger than any occupied slot's timer |
| RipTable.WaitingTimeLeftExpiresARoute | ripv2_server.c:108-117 | waiting the time `ripv2_timeleft` returned and then sweeping removes at least one route |
| RipTable.WaitingLessKeepsReachable | ripv2_route_table.c:589-597 | waiting less than that time keeps every route with a finite metric through the sweep |
| Ipv4Text.AddrStr | ipv4.c:54-59 | `ipv4_addr_str` prints at most 15 characters |
| Ipv4Text.Conversions | ipv4.c:83-85 | `sscanf(str, "%d.%d.%d.%d")` converts at most four integers |
| Ipv4Text.ParseAddr | ipv4.c:81-96 | an address comes back exactly when all four integers convert, and its octets are their low eight bits in order |
| Ipv4Text.StrAddr | ipv4.c:78-98 | a missing string is rejected; otherwise an address comes back exactly when `sscanf` converts all four integers, and each octet is the low eight bits of its integer (the `unsigned char` cast) |
| Ipv4Text.AddrRoundTrip | ipv4.c:54-98 | parsing the printed form of any address gives the address back |
| Ipv4Text.DigitRun | ipv4.c:83-85 | the longest all-digit prefix that `%d` consumes: every character before it is a digit and the next one is not |
| Ipv4Text.Decimal | ipv4.c:56-57 | `%d` of a non-negative value is a non-empty string of digits |
| Checksum.Fold | ipv4.c:127-129 | the end-around carry folds any sum to 16 bits with the same value modulo 0xFFFF, and gives 0 only for 0 |
| Checksum.Checksum | ipv4.c:114-135 | the complement added to the word sum is 0 modulo 0xFFFF, and it is 0xFFFF exactly when every word is 0 |
| Checksum.ComputeChecksum | ipv4.c:114-135 | the loop of the C function computes the checksum of the word sum |
| Checksum.ChecksumVerifies | ipv4.c:224-233 | a header whose checksum field was 0 and now holds its checksum has checksum 0 |
| Checksum.ChecksumPermutation | ipv4.c:121-124 | headers whose 16-bit words are permutations of each other have the same checksum |
| Ipv4.DecodeEncodeHeader | ipv4.c:217-226 | decoding the encoded header gives every field back |
| Ipv4.EncodeDecodeHeader | ipv4.c:217-226 | encoding the decoded 20 octets gives the octets back |
| Ipv4.MulticastRange | ipv4.c:228-231 | an address is multicast exactly when its first octet is in 224..239, which is exactly when the prefix test of `Prefix.Match` against 224.0.0.0/240.0.0.0 gives 4 |
| Ipv4.Datagram | ipv4.c:213-235 | the datagram holds the payload after a 20-octet header whose checksum verifies, with the total length, protocol, source, destination and TTL (1 for multicast) |
| Ipv4.Send | ipv4.c:170-256 | no layer, an empty payload or no route gives -1 with nothing sent; ARP is asked for the gateway, or for `dst` on an on-link route, exactly when `dst` is not multicast; a frame goes out exactly when there is a layer, a payload and a route and either `dst` is multicast or resolution succeeded; the result is the link's count minus 20, or -1 |
| Ipv4.SendReturnsPayloadLength | ipv4.c:249-255 | when resolution succeeds and the whole frame is sent, `ipv4_send` returns the payload length |
| Ipv4.OnLinkRouteRemembersFirstDestination | ipv4.c:205-208 | after one send through an on-link route the route's gateway is that first destination, and a later send to another host resolves the first one |
| Ipv4.Copied | ipv4.c:329-333 | the copied octets are the start of the payload: `min(buffer, declared length)` of them when the frame holds that many |
| Ipv4.Recv | ipv4.c:269-337 | the call ends at the first event that is not a frame it rejects (too short, another protocol, neither the local address nor multicast), and every earlier event is such a frame; a link timeout there gives 0, a link error -1, and an accepted frame its declared payload length, its source and the copied octets; the call stays pending exactly when every event is a rejected frame |
| Ipv4.RecvSkipsRejected | ipv4.c:304-318 | a frame that is not accepted changes nothing but the number of frames consumed |
| Ipv4.RecvSentDatagram | ipv4.c:315-335 | a datagram `ipv4_send` built for the local address is received with its source, its payload length and as much of the payload as fits |
| Udp.Datagram | udp.c:47-53 | source port, destination port, 16-bit length and a zero checksum, then the payload |
| Udp.Send | udp.c:34-64 | no layer or an empty payload gives -1 with nothing sent; otherwise the UDP datagram always goes to `ipv4_send` with protocol 17, and the result is its value minus 8, or -1 |
| Udp.SendReturnsPayloadLength | udp.c:57-63 | when the IPv4 send succeeds in full, `udp_send` returns the payload length |
| Udp.Copied | udp.c:117-122 | the copied octets are the start of the UDP payload, `min(buffer, length)` of them when delivered |
| Udp.RecvLoop | udp.c:90-124 | the loop passes over IPv4 receptions that time out or carry another destination port, and ends at the first other one: an IPv4 error gives -1, and a datagram for the bound port gives its IPv4 length minus 8, the sender's address, its source port and the first `min(buffer, length - 8)` payload octets; no more events are consumed than exist |
| Udp.RecvLoopAfterPassed | udp.c:90-107 | after receptions the loop passes over, the loop's outcome is its outcome on the events that follow them, with the passed events counted as consumed |
| Udp.ErrorIffIpv4Error | udp.c:96-99 | `udp_recv` returns -1 exactly when `ipv4_recv` fails after receptions the loop passes over |
| Udp.Recv | udp.c:67-126 | no layer or a non-positive buffer length gives -1 before anything is received; otherwise the receptions are passed over and ended as in the loop, and at most the buffer length is copied |
| Udp.OtherPortSkipped | udp.c:101-106 | an IPv4 datagram for another port changes nothing but the number of events consumed |
| Udp.RecvSentDatagram | udp.c:109-124 | a UDP datagram sent to the bound port and carried by IPv4 to the local address is received with the sender's address, port and payload length, and as much payload as fits |
| Arp.DecodeEncode | arp.c:28-39 | decoding an encoded 28-octet ARP message gives it back |
| Arp.EncodeDecode | arp.c:28-39 | encoding a decoded 28-octet message gives the octets back |
| Arp.Request | arp.c:45-55 | the 28 octets broadcast: hardware type 1, protocol 0x0800, sizes 6 and 4, opcode 1, the own MAC and address as sender, the all-zero MAC and the wanted address as target; decoding them gives the request back |
| Arp.Code | arp.c:58-110 | the return value is positive exactly when the MAC was resolved |
| Arp.Listen | arp.c:72-112 | the listen loop never fails to send, and once the echo request is sent it stays sent |
| Arp.Resolve | arp.c:42-114 | one or two requests are broadcast; a failed first send is the only way to get -2; the timers armed are 2000 ms and then 3000 ms |
| Arp.Relevant | arp.c:98-110 | the events that matter to the loop: every frame kept is a full-size ARP reply from the target |
| Arp.ResolveMatchesExpected | arp.c:72-112 | resolution is decided by the first relevant event: a reply resolves, a first timeout re-broadcasts, a second timeout gives up |
| Arp.IgnoredFrame | arp.c:98-110 | a short frame, a non-reply or a reply from another address changes nothing but the number of events consumed |
| Arp.ReplyResolves | arp.c:105-109 | a reply from the target resolves to the MAC it carries |
| Arp.TwoTimeoutsGiveUp | arp.c:76-94 | two timeouts in a row send two requests and return 0 |
| RipTableText.Tokens | ripv2_route_table.c:177-178 | the words the `%s` conversions of `sscanf(line, "%s %s %s %s\n", …)` read: non-empty runs without white space |
| RipTableText.RouteRead | ripv2_route_table.c:168-230 | a line gives no route exactly when it has fewer than four words, an address word does not parse or the metric word reads as 0; otherwise the route with those fields, family 2 and tag 0 |
| RipTableText.ReadLines | ripv2_route_table.c:440-476 | the routes already in the table stay where they are, a packed table stays packed, and a successful count is the number of routes added |
| RipTableText.ReadTable | ripv2_route_table.c:426-484 | a successful read adds exactly the reported count of routes |
| RipTableText.ReadFailsIff | ripv2_route_table.c:452-476 | reading fails exactly when some route line does not parse or the lines hold more routes than the free slots; otherwise the count is the number of route lines |
| RipTableText.ReadInOrder | ripv2_route_table.c:458-471 | into a packed table, the routes read fill the next slots in file order |
| RipTableText.ReadThenInitTimers | ripv2_route_table.c:616-626 | after a successful read into an empty table, `ripv2_inicialize_timers` with the count read gives every stored route a fresh 180000 ms timer |
| RipTableText.Pad | ripv2_route_table.c:272-273 | the `%-15s` field starts with the text and is padded with white space |
| RipTableText.RouteLineRoundTrip | ripv2_route_table.c:251-280 | reading the line `ripv2_route_output` prints for a route gives back that route (for the routes the reader can represent) |
| RipTableText.HeaderSkipped | ripv2_route_table.c:452-455 | the `#` header line is skipped by the reader |
| RipTableText.WriteThenRead | ripv2_route_table.c:486-501 | reading back a printed table of at most 25 routes fills the table with them in order and reports their number |
| RipTableText.TooManyRoutes | ripv2_route_table.c:464-476 | a file with more than 25 route lines fails to load |
| RipMessage.Encode | ripv2_server.c:130-134 | the message is 4 + 20·n octets, with the command, version 2 and the unused domain in the header |
| RipMessage.DecodeEncodeEntry | ripv2.h:21-30 | decoding an encoded route entry gives it back |
| RipMessage.EncodeDecodeEntry | ripv2.h:21-30 | encoding a decoded 20-octet entry gives the octets back |
| RipMessage.EntriesOfEncoded | ripv2.h:38-45 | a message of up to 25 entries, received whole, is read back entry for entry |
| RipMessage.Buffer | ripv2_server.c:112-113 | the receive buffer begins with as much of the datagram as fits |
| RipMessage.Entries | ripv2_server.c:153-154 | the server visits no entries for a count of 0 or less, otherwise the first `min(count, 25)` entries of the buffer |
| RipMessage.EntryCount | ripv2_server.c:122 | the intended count: never negative, positive exactly when a whole entry follows the header, and the number of whole entries after it |
| RipMessage.ToInt32 | ripv2_server.c:122 | conversion to a 32-bit `int`: in range and congruent modulo 2^32 |
| RipMessage.EntryCountAgrees | ripv2_server.c:122 | for datagrams at least as long as the header, the count as written equals the intended one |
| RipMessage.EntryCountShortDatagram | ripv2_server.c:122-124 | with a 64-bit `size_t`, for a datagram of 1 to 3 octets the count as written is -858993460, not 0 |
| RipMessage.NetIncrementIsSuccessor | ripv2_server.c:183 | on a little-endian host, adding `htonl(1)` to a raw metric of 0..15 and reading it back with `ntohl` gives the metric plus one |
| RipMessage.LearnedFamilyIsZero | ripv2_server.c:190-191 | on a little-endian host the family of a learned route is always 0 |
| RipServer.WaitTime | ripv2_server.c:108 | the wait is -1 exactly when the table is empty; otherwise it is the timer of some route in the table and no longer than any route's timer |
| RipServer.Sweep | ripv2_server.c:117 | expired routes are dropped, all other slots and all timers are kept |
| RipServer.Occupants | ripv2_server.c:140-149 | the table's routes in slot order: as many as the table holds, each from the table, and the route of each occupied slot at the position given by the number of occupied slots before it |
| RipServer.MetricFor | ripv2_server.c:156-158 | 16 when the table has no route with the entry's subnet and mask, otherwise the metric of the route that has |
| RipServer.Answer | ripv2_server.c:136-163 | a request for the whole table (one entry, family 0, metric 16 or more, the test `ripv2_is_infinite` makes) is answered with the table's routes; any other request with its own entries, each with the table's metric for it |
| RipServer.Learnt | ripv2_server.c:187-194 | a learned route keeps the entry's subnet, mask and tag, takes the sender as gateway, the incremented metric and family 0 |
| RipServer.Insert | ripv2_server.c:193-197 | with a free slot the route is added there and its timer reset to 180000 ms; with a full table nothing changes |
| RipServer.Refresh | ripv2_server.c:199-212 | same gateway: the timer is reset and the metric replaced; another gateway with a smaller metric: only the gateway is replaced; otherwise nothing changes; no other slot changes |
| RipServer.ProcessEntry | ripv2_server.c:174-212 | an entry with metric 16 or more is ignored; an unknown route is inserted when the metric plus one is below 16 and dropped otherwise; a known one is refreshed with the metric plus one |
| RipServer.Handle | ripv2_server.c:120-218 | non-positive byte counts, other ports and empty counts are discarded; a reply is sent exactly for a REQUEST, to the sender's port 520, holding the RESPONSE encoding of the answer, without changing the state; a RESPONSE gives the state after learning its entries and no reply; any other command changes nothing |
| RipServer.Step | ripv2_server.c:117-124 | the corrected loop body: a discarded datagram (no bytes, another port, no whole entry) leaves only the swept state; a RESPONSE gives the swept state after learning its entries; a reply leaves the swept state |
| RipServer.StepAsWritten | ripv2_server.c:117-124 | the loop body with the count as written: a datagram discarded by that count leaves only the swept state; a RESPONSE gives the swept state after learning its entries; a reply leaves the swept state |
| RipServer.Iteration | ripv2_server.c:106-124 | one turn of the loop after waiting `elapsed` ms: a reply leaves the table swept with the elapsed timers, and the timers are the elapsed ones unless the datagram is a RESPONSE |
| RipServer.WaitedPassDropsARoute | ripv2_server.c:108-117 | when a datagram arrives as the least timer on a non-empty table runs out, handling anything but a RESPONSE leaves the swept table, which has fewer routes than before |
| RipServer.DiscardedDatagram | ripv2_server.c:117-124 | a non-positive byte count, another port or less than one whole entry only sweeps the table |
| RipServer.AnsweredIffRequest | ripv2_server.c:126-167 | a datagram from port 520 with at least one entry is answered exactly when it is a REQUEST |
| RipServer.RequestAllListsTable | ripv2_server.c:136-165 | a whole-table request is answered with a RESPONSE holding the swept table's routes |
| RipServer.RequestAllRoundTrip | ripv2_server.c:136-165 | decoding the whole-table answer gives back exactly the swept table's routes in slot order |
| RipServer.SpecificRequestEcho | ripv2_server.c:151-165 | a specific request is answered with the same entries, each with the table's metric for it or 16 |
| RipServer.InsertInvariant | ripv2_server.c:185-197 | inserting a route under a new key keeps the keys unique and the metrics at most 16 |
| RipServer.RefreshInvariant | ripv2_server.c:199-212 | refreshing a route keeps the keys unique and the metrics at most 16 |
| RipServer.ProcessEntryInvariant | ripv2_server.c:174-212 | processing any entry keeps the subnet/mask keys unique and every metric at most 16 |
| RipServer.LearnInvariant | ripv2_server.c:174-216 | learning a whole RESPONSE keeps both invariants |
| RipServer.BetterPathKeepsMetric | ripv2_server.c:209-212 | a better route from another gateway switches the gateway but keeps the old metric and timer |
| RipServer.WithdrawnRouteIsSwept | ripv2_server.c:202-208 | a route that its own gateway now advertises with metric 15 gets metric 16, and the next sweep removes it |
| RipServer.NewRouteLearnt | ripv2_server.c:187-197 | an unknown route with metric below 15 is added through the sender with the metric plus one and a fresh timer, when a slot is free |
| RipServer.ShortRequestAnswered | ripv2_server.c:122-165 | a 1-octet REQUEST from port 520 gets an empty RESPONSE from the code as written, and no reply from the corrected code |

## Left out

- Link layer, timers and clocks: `eth_recv`, `eth_send` and `timerms_*` are not modelled. Received frames and timeouts are a sequence of events. Timers are countdown values that `RipTable.Elapse` decrements. What `arp_resolve` and `eth_send` return is an argument of `Ipv4.Send`.
- File and console I/O: `printf`, `ripv2_route_table_write`, `ripv2_route_table_output_with_timers` and the `fopen`/`fgets` plumbing are left out. A file is its sequence of lines. Only the single-route printer is modelled (`RipTableText.RouteLine`), as the partner of the reader.
- The forked periodic advertiser (`ripv2_server.c`:72-103) is a separate process, so it is not part of the server iteration.
- Memory management (`malloc`, `free`, `*_create`, `*_free`) is not modelled. A NULL string (`ipv4_str_addr`) and a NULL layer (`udp_send`, `udp_recv`, `ipv4_send`) are modelled as `Option`.
- A NULL route table is not modelled. The table functions test `table != NULL` (for example `ripv2_route_table.c:336`, 354, 367, 386, 397, 588) and `ripv2_route_table_find` returns -2 for it; the model's table always exists.
- The static IPv4 route table is not part of this model. `Ipv4.Send` takes the gateway its lookup yields, or None. When the C lookup returns NULL, `next_jump->gateway_addr` is dereferenced; the model treats that case as "no route" and returns -1.
- `Checksum.Checksum`: odd lengths are not modelled, since the header is always 20 octets.
- `Checksum.ComputeChecksum`: the 32-bit `unsigned int` accumulator is not wrapped; the method requires data short enough that it cannot overflow.
- `Ipv4.Send`: the negative-length check is unreachable, because a payload is a sequence.
- `Ipv4.Send`: payloads longer than the IPv4 frame buffer (`Ipv4.Mru`, 1480 octets) are not excluded.
- `Udp.Send`: payloads longer than the 1472-octet payload field of `udp_packet_t` (`UDP_PACKET_LEN`, udp.h:12 and 29) are not excluded. The C code copies them past that field (`udp.c:53`). The server's own replies are at most 504 octets.
- `Udp.RecvLoop`: on an IPv4 timeout (0) the C loop tests the port field of whatever the buffer still holds. The model treats that as not matching and keeps waiting.
- `Udp.RecvLoop`: the wait time running down is not modelled.
- `Udp.RecvLoop`: a reception that delivered fewer than 4 octets never matches the bound port. The C code compares the port field of whatever the buffer still holds.
- `Ipv4.Copied`: a negative declared length (total length under 20) copies nothing. The C code passes the negative size to `memcpy` (`ipv4.c:329-333`).
- `Ipv4.Copied`: a declared length beyond the frame copies only the octets delivered. The C code copies stale buffer octets after them.
- `Udp.Copied`: a negative length (IPv4 length under 8) copies nothing. The C code passes the negative size to `memcpy` (`udp.c:117-122`).
- `Udp.Copied`: a length beyond what was delivered copies only the delivered octets. The C code copies stale buffer octets after them.
- `Arp.Resolve`: the MAC is reported only on success. `eth_recv` receives every frame with the caller's `mac` buffer as its source-address argument (`arp.c:84`). After a timeout or a link error the buffer therefore most likely holds the source address of the last frame received. rawnet is not part of this model, so this reading of that argument is inferred.
- `RipMessage.Entries`: a datagram longer than the 504-octet buffer is not modelled. The C code then reads past the buffer for counts above 25. The model caps the entries at 25.
- `RipMessage.Buffer`: octets left in the buffer by an earlier datagram are modelled as zeros.
- `RipServer.Insert`: with a full table the C code resets `timers[-1]`, which is undefined behaviour. The model leaves the state unchanged.
- `RipTableText.RouteRead`: `atoi` overflow is not modelled. Neither is the 4-character `str_metric` buffer (`ripv2_route_table.c:174`): `sscanf` overflows it for a metric word of 4 or more characters. The printer's metric buffer has the same limit.
- `RipTableText.ReadLines`: lines longer than the 1024-octet `fgets` buffer are not modelled.
- `RipTableText.ReadLines`: a NULL table (lines parsed but not stored) is not modelled.
- `RipTableText.RouteLineRoundTrip`: holds for routes with family 2, tag 0 and a metric of 1 to 999 (`Writable`). These are the routes the reader can produce and the printer's buffer can hold.
- `RipMessage.NetIncrementIsSuccessor`: stated for a little-endian host only. The tag is kept as its raw wire value.
- The byte order of the host is fixed as little-endian wherever the server mixes raw and converted fields.
- `RipMessage.EntryCountShortDatagram`: stated for a 64-bit `size_t` only. With a 32-bit `size_t` the count for 1 to 3 octets is 214748364, and a REQUEST would then read that many entries past the buffer; that case is not modelled.

## Findings

| source | as written | input that shows it | evidently intended | confidence | as-written member | corrected member |
|---|---|---|---|---|---|---|
| ripv2_server.c:122-124 | `(bytes - RIP_HEADER_SIZE) / sizeof(entrada_rip_t)`: the subtraction is converted to the unsigned `size_t`, so with a 64-bit `size_t`, for 1 to 3 octets it wraps and stores -858993460 in `n_entries`. That passes the `n_entries == 0` guard, and a REQUEST is answered with an empty RESPONSE. | a 1-octet datagram `[1]` from port 520 (`RipServer.ShortRequestAnswered`, `RipMessage.EntryCountShortDatagram`) | a datagram shorter than one header plus one entry has 0 entries and is discarded | not executed | RipServer.StepAsWritten | RipServer.Step |

=== FILE: arp.dfy ===
/** ARP resolution as done by `arp_resolve` (arp.c): a broadcast request in
    the layout of RFC 826, then a wait for the matching reply with one
    rebroadcast. The link is abstracted as a sequence of receive events. */
module Arp {
  import opened Wire

  const HardwareEthernet := 1
  const ProtocolIpv4 := 0x0800
  const EtherTypeArp := 0x0806
  const OpRequest := 1
  const OpReply := 2
  /** `sizeof(arp_message_t)`: the fixed Ethernet/IPv4 ARP message. */
  const MessageSize := 28
  /** Milliseconds waited for a reply before the single rebroadcast. */
  const FirstTimeout := 2000
  /** Milliseconds waited for a reply after the rebroadcast. */
  const EchoTimeout := 3000

  /** An ARP message (`arp_message_t`), numeric fields as host values. */
  datatype Message = Message(
    hwType: u16, protoType: u16, hwSize: byte, protoSize: byte, opcode: u16,
    senderMac: Mac, senderIp: Addr, targetMac: Mac, targetIp: Addr)

  /** The 28 octets of a message, 16-bit fields in network byte order. */
  function Encode(m: Message): (b: seq<byte>)
    ensures |b| == MessageSize
  {
    EncodeBe16(m.hwType) + EncodeBe16(m.protoType) + [m.hwSize, m.protoSize]
      + EncodeBe16(m.opcode) + m.senderMac + m.senderIp + m.targetMac + m.targetIp
  }

  /** Reading a message from the first 28 octets of a received frame. */
  function Decode(b: seq<byte>): Message
    requires |b| >= MessageSize
  {
    Message(DecodeBe16(b[0..2]), DecodeBe16(b[2..4]), b[4], b[5], DecodeBe16(b[6..8]),
            b[8..14], b[14..18], b[18..24], b[24..28])
  }

  lemma DecodeEncode(m: Message)
    ensures Decode(Encode(m)) == m
  {
    var b := Encode(m);
    assert b[0..2] == EncodeBe16(m.hwType);
    assert b[2..4] == EncodeBe16(m.protoType);
    assert b[6..8] == EncodeBe16(m.opcode);
    assert b[8..14] == m.senderMac;
    assert b[14..18] == m.senderIp;
    assert b[18..24] == m.targetMac;
    assert b[24..28] == m.targetIp;
  }

  lemma EncodeDecode(b: seq<byte>)
    requires |b| == MessageSize
    ensures Encode(Decode(b)) == b
  {
    Be16Injective(b[0..2]);
    Be16Injective(b[2..4]);
    Be16Injective(b[6..8]);
    assert b == b[0..2] + b[2..4] + [b[4], b[5]] + b[6..8] + b[8..14] + b[14..18] + b[18..24] + b[24..28];
  }

  /** The request broadcast for `target`: Ethernet hardware, IPv4 protocol,
      address sizes 6 and 4, opcode 1, the interface's own link and IPv4
      addresses as sender and the unknown all-zero link address as target. */
  function Request(ownMac: Mac, src: Addr, target: Addr): (m: Message)
    ensures var b := Encode(m);
            b[..8] == [0, 1, 8, 0, 6, 4, 0, 1]
            && b[8..14] == ownMac && b[14..18] == src && b[18..24] == UnknownMac && b[24..] == target
    ensures Decode(Encode(m)) == m
  {
    var m := Message(HardwareEthernet, ProtocolIpv4, 6, 4, OpRequest, ownMac, src, UnknownMac, target);
    DecodeEncode(m);
    assert EncodeBe16(HardwareEthernet) == [0, 1] && EncodeBe16(ProtocolIpv4) == [8, 0] && EncodeBe16(OpRequest) == [0, 1];
    m
  }

  /** A received frame answers the request for `target`: it holds a whole
      message, its opcode is reply and its sender IPv4 address is `target`.
      The other fields are not examined. */
  predicate Accepts(target: Addr, frame: seq<byte>)
  {
    |frame| >= MessageSize && Decode(frame).opcode == OpReply && Decode(frame).senderIp == target
  }

  /** What one `eth_recv` call returns: 0 when the wait expires, -1 on a
      link failure, otherwise a frame of the ARP ethertype. */
  datatype Event = Timeout | Frame(bytes: seq<byte>) | LinkError

  /** The value of `arp_resolve`: 1 with the link address, 0, -1 or -2;
      Waiting when the events run out before the function returns. */
  datatype Outcome = Resolved(mac: Mac) | TimedOut | LinkFailed | SendFailed | Waiting

  function Code(o: Outcome): (c: int)
    requires !o.Waiting?
    ensures c > 0 <==> o.Resolved?
  {
    match o
    case Resolved(_) => 1
    case TimedOut => 0
    case LinkFailed => -1
    case SendFailed => -2
  }

  /** A run of the resolver: its outcome, the requests broadcast, the
      durations the reply timer was armed with, in order, and how many
      events were consumed. */
  datatype Run = Run(outcome: Outcome, requests: nat, timers: seq<nat>, consumed: nat)

  /** The receive loop. `echo` records that the rebroadcast has been sent.
      Yields the outcome, whether the rebroadcast was sent, and the number
      of events consumed. */
  function Listen(target: Addr, echo: bool, events: seq<Event>): (r: (Outcome, bool, nat))
    ensures r.2 <= |events|
    ensures echo ==> r.1
    ensures r.0 != SendFailed
    decreases |events|
  {
    if |events| == 0 then (Waiting, echo, 0)
    else
      match events[0]
      case LinkError => (LinkFailed, echo, 1)
      case Timeout =>
        if echo then (TimedOut, true, 1)
        else
          var r := Listen(target, true, events[1..]);
          (r.0, r.1, r.2 + 1)
      case Frame(b) =>
        if Accepts(target, b) then (Resolved(Decode(b).senderMac), echo, 1)
        else
          var r := Listen(target, echo, events[1..]);
          (r.0, r.1, r.2 + 1)
  }

  /** `arp_resolve`: `firstSendOk` is whether the first broadcast was
      handed to the link. The outcome of the rebroadcast send is ignored, as
      in the C code. */
  function Resolve(firstSendOk: bool, target: Addr, events: seq<Event>): (r: Run)
    ensures 1 <= r.requests <= 2
    ensures r.consumed <= |events|
    ensures r.outcome.SendFailed? <==> !firstSendOk
    ensures firstSendOk ==> |r.timers| == r.requests && r.timers == [FirstTimeout, EchoTimeout][..r.requests]
  {
    if !firstSendOk then Run(SendFailed, 1, [], 0)
    else
      var l := Listen(target, false, events);
      if l.1 then Run(l.0, 2, [FirstTimeout, EchoTimeout], l.2)
      else Run(l.0, 1, [FirstTimeout], l.2)
  }

  /** The events that matter to the resolver: frames it would accept,
      timeouts and link errors, in order. */
  function Relevant(target: Addr, events: seq<Event>): (rel: seq<Event>)
    ensures forall i :: 0 <= i < |rel| && rel[i].Frame? ==> Accepts(target, rel[i].bytes)
  {
    if |events| == 0 then []
    else if events[0].Frame? && !Accepts(target, events[0].bytes) then Relevant(target, events[1..])
    else [events[0]] + Relevant(target, events[1..])
  }

  /** The outcome an accepted frame or a link error decides. */
  function Decisive(target: Addr, e: Event): Outcome
    requires e.Frame? ==> Accepts(target, e.bytes)
  {
    match e
    case Frame(b) => Resolved(Decode(b).senderMac)
    case LinkError => LinkFailed
    case Timeout => TimedOut
  }

  /** The resolver's contract read off the relevant events alone: a reply or
      a link error before any timeout decides with one request; a first
      timeout triggers the second request, after which a reply or link error
      decides, and a second timeout gives up. */
  function Expected(target: Addr, events: seq<Event>): (Outcome, nat)
  {
    var rel := Relevant(target, events);
    if |rel| == 0 then (Waiting, 1)
    else if !rel[0].Timeout? then (Decisive(target, rel[0]), 1)
    else if |rel| == 1 then (Waiting, 2)
    else (Decisive(target, rel[1]), 2)
  }

  lemma {:induction false} ListenEcho(target: Addr, events: seq<Event>)
    ensures var rel := Relevant(target, events);
            Listen(target, true, events).0 == (if |rel| == 0 then Waiting else Decisive(target, rel[0]))
    decreases |events|
  {
    if |events| > 0 {
      ListenEcho(target, events[1..]);
    }
  }

  lemma {:induction false} ListenFirst(target: Addr, events: seq<Event>)
    ensures var l := Listen(target, false, events);
            (l.0, if l.1 then 2 else 1) == Expected(target, events)
    decreases |events|
  {
    if |events| > 0 {
      var rel := Relevant(target, events);
      match events[0]
      case LinkError =>
      case Timeout =>
        ListenEcho(target, events[1..]);
        assert rel == [Timeout] + Relevant(target, events[1..]);
      case Frame(b) =>
        if !Accepts(target, b) {
          ListenFirst(target, events[1..]);
        }
    }
  }

  /** The resolver's run agrees with the reference reading of the events:
      frames that do not answer the request are ignored, at most two requests
      go out, and a timeout after the rebroadcast ends the wait. */
  lemma ResolveMatchesExpected(target: Addr, events: seq<Event>)
    ensures var r := Resolve(true, target, events);
            (r.outcome, r.requests) == Expected(target, events)
  {
    ListenFirst(target, events);
  }

  /** A frame that does not answer the request changes nothing but the
      number of events consumed. */
  lemma IgnoredFrame(target: Addr, frame: seq<byte>, events: seq<Event>)
    requires !Accepts(target, frame)
    ensures var r := Resolve(true, target, [Frame(frame)] + events);
            var s := Resolve(true, target, events);
            r.outcome == s.outcome && r.requests == s.requests && r.consumed == s.consumed + 1
  {
    assert ([Frame(frame)] + events)[1..] == events;
  }

  /** A matching reply built by the target host resolves at once, with one
      request, and yields the link address it carries. */
  lemma ReplyResolves(ownMac: Mac, src: Addr, target: Addr, targetMac: Mac, events: seq<Event>)
    ensures var reply := Message(HardwareEthernet, ProtocolIpv4, 6, 4, OpReply, targetMac, target, ownMac, src);
            Resolve(true, target, [Frame(Encode(reply))] + events) == Run(Resolved(targetMac), 1, [FirstTimeout], 1)
  {
    var reply := Message(HardwareEthernet, ProtocolIpv4, 6, 4, OpReply, targetMac, target, ownMac, src);
    DecodeEncode(reply);
  }

  /** Two timeouts in a row: the request is broadcast twice and the call
      returns 0 after waiting 2000 and then 3000 ms. */
  lemma TwoTimeoutsGiveUp(target: Addr, events: seq<Event>)
    ensures Resolve(true, target, [Timeout, Timeout] + events) == Run(TimedOut, 2, [FirstTimeout, EchoTimeout], 2)
  {
    var evs := [Timeout, Timeout] + events;
    assert evs[1..] == [Timeout] + events;
    assert Listen(target, true, evs[1..]) == (TimedOut, true, 1);
    assert Listen(target, false, evs) == (TimedOut, true, 2);
  }
}

=== FILE: checksum.dfy ===
/** The Internet checksum of RFC 1071 as computed by `ipv4_checksum`
    (ipv4.c): the 16-bit one's-complement of the one's-complement sum of the
    big-endian 16-bit words of the data. */
module Checksum {
  import opened Wire

  /** Longest even buffer whose word sum cannot overflow the 32-bit
      accumulator of the C code: 65537 words of at most 0xFFFF. */
  const MaxUnwrappedLength := 131074

  /** The big-endian 16-bit word starting at byte offset `i`. */
  function WordAt(data: seq<byte>, i: nat): u16
    requires i + 1 < |data|
  {
    data[i] as int * 0x100 + data[i + 1] as int
  }

  /** The 16-bit words of an even-length buffer, in order. */
  function Words(data: seq<byte>): (w: seq<u16>)
    requires |data| % 2 == 0
    ensures |w| == |data| / 2
    decreases |data|
  {
    if |data| == 0 then [] else [WordAt(data, 0)] + Words(data[2..])
  }

  function Sum(w: seq<u16>): nat
  {
    if |w| == 0 then 0 else w[0] as int + Sum(w[1..])
  }

  /** The plain (carry-keeping) sum of the words of `data`. */
  function WordSum(data: seq<byte>): nat
    requires |data| % 2 == 0
  {
    Sum(Words(data))
  }

  /** End-around-carry folding (`while (sum >> 16) sum = (sum & 0xFFFF) +
      (sum >> 16)`): the result is the one's-complement sum, i.e. the unique
      16-bit value congruent to `s` modulo 0xFFFF that is zero only for zero. */
  function Fold(s: nat): (r: u16)
    ensures r % 0xFFFF == s % 0xFFFF
    ensures r == 0 <==> s == 0
    decreases s
  {
    if s < 0x1_0000 then s
    else
      var s' := s % 0x1_0000 + s / 0x1_0000;
      assert s == (s / 0x1_0000) * 0xFFFF + s';
      Fold(s')
  }

  /** The checksum of `data`: adding it to the word sum gives a multiple of
      0xFFFF (one's-complement negative zero), and it is 0xFFFF exactly when
      every word is zero. */
  function Checksum(data: seq<byte>): (c: u16)
    requires |data| % 2 == 0
    ensures (WordSum(data) + c) % 0xFFFF == 0
    ensures c == 0xFFFF <==> WordSum(data) == 0
  {
    0xFFFF - Fold(WordSum(data))
  }

  /** `ipv4_checksum` step by step: a 32-bit accumulator over the words, the
      carry-folding loop, then `~sum` truncated to 16 bits. Odd lengths are
      excluded because the C loop reads one byte past the end for them. */
  method ComputeChecksum(data: seq<byte>) returns (c: u16)
    requires |data| % 2 == 0
    requires |data| <= MaxUnwrappedLength
    ensures c == Checksum(data)
  {
    var sum: nat := 0;
    var i := 0;
    while i < |data|
      invariant 0 <= i <= |data| && i % 2 == 0
      invariant sum == WordSum(data[..i])
      invariant sum <= (i / 2) * 0xFFFF
    {
      var word16 := data[i] as int * 0x100 + data[i + 1] as int;
      WordSumExtend(data, i);
      sum := (sum + word16) % 0x1_0000_0000;
      i := i + 2;
    }
    assert data[..i] == data;
    while sum >= 0x1_0000
      invariant Fold(sum) == Fold(WordSum(data))
      decreases sum
    {
      sum := sum % 0x1_0000 + sum / 0x1_0000;
    }
    sum := 0xFFFF_FFFF - sum;
    c := sum % 0x1_0000;
  }

  lemma {:induction false} SumAppend(a: seq<u16>, b: seq<u16>)
    ensures Sum(a + b) == Sum(a) + Sum(b)
    decreases |a|
  {
    if |a| == 0 {
      assert a + b == b;
    } else {
      assert (a + b)[1..] == a[1..] + b;
      SumAppend(a[1..], b);
    }
  }

  lemma {:induction false} WordsAppend(a: seq<byte>, b: seq<byte>)
    requires |a| % 2 == 0 && |b| % 2 == 0
    ensures Words(a + b) == Words(a) + Words(b)
    decreases |a|
  {
    if |a| == 0 {
      assert a + b == b;
    } else {
      assert (a + b)[2..] == a[2..] + b;
      WordsAppend(a[2..], b);
    }
  }

  lemma WordSumAppend(a: seq<byte>, b: seq<byte>)
    requires |a| % 2 == 0 && |b| % 2 == 0
    ensures WordSum(a + b) == WordSum(a) + WordSum(b)
  {
    WordsAppend(a, b);
    SumAppend(Words(a), Words(b));
  }

  lemma WordSumExtend(data: seq<byte>, i: nat)
    requires i % 2 == 0 && i + 1 < |data|
    ensures WordSum(data[..i + 2]) == WordSum(data[..i]) + WordAt(data, i)
  {
    assert data[..i + 2] == data[..i] + data[i..i + 2];
    var m := data[i..i + 2];
    WordSumAppend(data[..i], m);
    assert m[2..] == [];
    assert Words(m) == [WordAt(m, 0)] + Words(m[2..]);
    assert Sum([WordAt(m, 0)]) == WordAt(m, 0) as int + Sum([]);
  }

  /** `data` with the 16-bit word at offset `k` replaced by `v`, big-endian. */
  function WithWord(data: seq<byte>, k: nat, v: u16): (r: seq<byte>)
    requires k + 1 < |data|
    ensures |r| == |data|
  {
    data[..k] + EncodeBe16(v) + data[k + 2..]
  }

  lemma WordSumWithWord(data: seq<byte>, k: nat, v: u16)
    requires |data| % 2 == 0 && k % 2 == 0 && k + 1 < |data|
    ensures WordSum(WithWord(data, k, v)) + WordAt(data, k) == WordSum(data) + v
  {
    var pre, mid, post := data[..k], data[k..k + 2], data[k + 2..];
    assert data == pre + mid + post;
    WordSumAppend(pre + mid, post);
    WordSumAppend(pre, mid);
    WordSumAppend(pre + EncodeBe16(v), post);
    WordSumAppend(pre, EncodeBe16(v));
    assert Words(mid) == [WordAt(data, k)] + Words(mid[2..]);
    assert Words(EncodeBe16(v)) == [v] + Words(EncodeBe16(v)[2..]);
  }

  /** Storing the checksum of a buffer, big-endian, into a word of it that
      was zero while the checksum was computed makes the checksum of the
      whole buffer zero: the receiver-side test of RFC 1071 succeeds. */
  lemma ChecksumVerifies(data: seq<byte>, k: nat)
    requires |data| % 2 == 0 && k % 2 == 0 && k + 1 < |data|
    requires data[k] == 0 && data[k + 1] == 0
    ensures Checksum(WithWord(data, k, Checksum(data))) == 0
  {
    var c := Checksum(data);
    var s := WordSum(data);
    var s' := WordSum(WithWord(data, k, c));
    WordSumWithWord(data, k, c);
    assert s' == s + c;
    assert s' > 0;
    assert s' % 0xFFFF == 0;
  }

  lemma {:induction false} SumRemove(b: seq<u16>, i: nat)
    requires i < |b|
    ensures Sum(b) == b[i] as int + Sum(b[..i] + b[i + 1..])
  {
    assert b == b[..i] + [b[i]] + b[i + 1..];
    SumAppend(b[..i] + [b[i]], b[i + 1..]);
    SumAppend(b[..i], [b[i]]);
    SumAppend(b[..i], b[i + 1..]);
    assert Sum([b[i]]) == b[i] as int + Sum([b[i]][1..]);
  }

  /** Addition of words is insensitive to their order. */
  lemma {:induction false} SumPermutation(a: seq<u16>, b: seq<u16>)
    requires multiset(a) == multiset(b)
    ensures Sum(a) == Sum(b)
    decreases |a|
  {
    if |a| == 0 {
      assert |b| == |multiset(b)| == 0;
    } else {
      var i := MultisetRemove(a, b);
      SumPermutation(a[1..], b[..i] + b[i + 1..]);
      SumRemove(b, i);
    }
  }

  /** The first element of `a` has a position `i` in its permutation `b`,
      and the rest of `a` is a permutation of `b` without position `i`. */
  lemma MultisetRemove<T>(a: seq<T>, b: seq<T>) returns (i: nat)
    requires |a| > 0 && multiset(a) == multiset(b)
    ensures i < |b| && b[i] == a[0]
    ensures multiset(a[1..]) == multiset(b[..i] + b[i + 1..])
  {
    var x := a[0];
    assert a == [x] + a[1..];
    assert x in multiset(b);
    i :| 0 <= i < |b| && b[i] == x;
    var rest := b[..i] + b[i + 1..];
    assert b == b[..i] + [x] + b[i + 1..];
    assert multiset(b) == multiset(rest) + multiset{x};
    assert multiset(a) == multiset(a[1..]) + multiset{x};
    assert multiset(a[1..]) == multiset(a) - multiset{x} == multiset(rest);
  }

  /** The checksum does not depend on the order of the 16-bit words
      (RFC 1071 section 2, commutativity). */
  lemma ChecksumPermutation(a: seq<byte>, b: seq<byte>)
    requires |a| % 2 == 0 && |b| % 2 == 0
    requires multiset(Words(a)) == multiset(Words(b))
    ensures Checksum(a) == Checksum(b)
  {
    SumPermutation(Words(a), Words(b));
  }
}

=== FILE: ipv4.dfy ===
/** The IPv4 layer of ipv4.c: the RFC 791 section 3.1 header that
    `ipv4_send` builds, its next-hop and link-address choice, the multicast
    test, and the accept and copy rules of `ipv4_recv`. The link, the static
    route table and the ARP resolver are parameters. */
module Ipv4 {
  import opened Wire
  import Checksum
  import Prefix

  const HeaderSize := 20
  /** Largest payload the C frame buffer holds (`MRU`). */
  const Mru := 1480
  const DefaultTtl := 32
  /** First header octet: version 4, header length 5 words (`IPV4_VERSION`). */
  const VersionIhl := 0x45
  /** Second header octet as the C code fills it (`IPV4_TYPE`). */
  const TypeOfService := 4
  const EtherTypeIpv4 := 0x0800
  const MulticastAddr: Addr := [224, 0, 0, 0]
  const MulticastNetwork: Addr := [240, 0, 0, 0]

  /** The fixed part of an IPv4 header, numeric fields as host values. */
  datatype Header = Header(
    versionIhl: byte, tos: byte, totalLength: u16, id: u16, flagsOffset: u16,
    ttl: byte, protocol: byte, checksum: u16, src: Addr, dst: Addr)

  /** The 20 header octets, 16-bit fields in network byte order; the
      checksum occupies octets 10 and 11. */
  function EncodeHeader(h: Header): (b: seq<byte>)
    ensures |b| == HeaderSize
  {
    [h.versionIhl, h.tos] + EncodeBe16(h.totalLength) + EncodeBe16(h.id) + EncodeBe16(h.flagsOffset)
      + [h.ttl, h.protocol] + EncodeBe16(h.checksum) + h.src + h.dst
  }

  function DecodeHeader(b: seq<byte>): Header
    requires |b| >= HeaderSize
  {
    Header(b[0], b[1], DecodeBe16(b[2..4]), DecodeBe16(b[4..6]), DecodeBe16(b[6..8]),
           b[8], b[9], DecodeBe16(b[10..12]), b[12..16], b[16..20])
  }

  lemma DecodeEncodeHeader(h: Header)
    ensures DecodeHeader(EncodeHeader(h)) == h
  {
    var front := [h.versionIhl, h.tos] + EncodeBe16(h.totalLength) + EncodeBe16(h.id) + EncodeBe16(h.flagsOffset)
      + [h.ttl, h.protocol] + EncodeBe16(h.checksum);
    assert EncodeHeader(h) == front + h.src + h.dst;
    MiddleSlice(front, h.src, h.dst);
    MiddleSlice(front + h.src, h.dst, []);
    assert front + h.src + h.dst + [] == front + h.src + h.dst;
    var b := EncodeHeader(h);
    assert b[0] == h.versionIhl && b[1] == h.tos && b[8] == h.ttl && b[9] == h.protocol;
    assert b[2..4] == EncodeBe16(h.totalLength);
    assert b[4..6] == EncodeBe16(h.id);
    assert b[6..8] == EncodeBe16(h.flagsOffset);
    assert b[10..12] == EncodeBe16(h.checksum);
    assert b[12..16] == h.src && b[16..20] == h.dst;
    assert DecodeHeader(b) == Header(h.versionIhl, h.tos, DecodeBe16(EncodeBe16(h.totalLength)), DecodeBe16(EncodeBe16(h.id)),
                                     DecodeBe16(EncodeBe16(h.flagsOffset)), h.ttl, h.protocol,
                                     DecodeBe16(EncodeBe16(h.checksum)), h.src, h.dst);
  }

  lemma EncodeDecodeHeader(b: seq<byte>)
    requires |b| == HeaderSize
    ensures EncodeHeader(DecodeHeader(b)) == b
  {
    Be16Injective(b[2..4]);
    Be16Injective(b[4..6]);
    Be16Injective(b[6..8]);
    Be16Injective(b[10..12]);
    assert b == [b[0], b[1]] + b[2..4] + b[4..6] + b[6..8] + [b[8], b[9]] + b[10..12] + b[12..16] + b[16..20];
  }

  /** Setting the checksum field of a header is replacing its word at
      octet 10. */
  lemma SetChecksumIsWithWord(h: Header, c: u16)
    ensures EncodeHeader(h.(checksum := c)) == Checksum.WithWord(EncodeHeader(h), 10, c)
  {
    var b := EncodeHeader(h);
    assert b[..10] == [h.versionIhl, h.tos] + EncodeBe16(h.totalLength) + EncodeBe16(h.id)
      + EncodeBe16(h.flagsOffset) + [h.ttl, h.protocol];
    assert b[12..] == h.src + h.dst;
  }

  /** The intended `is_multicast`: every octet masked with 240.0.0.0 equals
      the corresponding octet of 224.0.0.0. */
  predicate IsMulticast(a: Addr)
  {
    forall i :: 0 <= i < 4 ==> Prefix.And(a[i], MulticastNetwork[i]) == MulticastAddr[i]
  }

  /** The multicast test is the 224.0.0.0/4 range, and it is also what the
      route-style check of `ipv4_send` (a prefix length of 4 against
      224.0.0.0/240.0.0.0) computes. */
  lemma MulticastRange(a: Addr)
    ensures IsMulticast(a) <==> 224 <= a[0] < 240
    ensures IsMulticast(a) <==> Prefix.Match(MulticastAddr, MulticastNetwork, a) == 4
  {
    Prefix.AndMulticastNibble(a[0]);
    MulticastMaskLength();
    assert IsMulticast(a) <==> Prefix.And(a[0], 0xF0) == 0xE0 by {
      Prefix.AndZero(a[1]);
      Prefix.AndZero(a[2]);
      Prefix.AndZero(a[3]);
    }
    assert IsMulticast(a) <==> Prefix.Covers(MulticastAddr, MulticastNetwork, a);
  }

  lemma MulticastMaskLength()
    ensures Prefix.MaskLength(MulticastNetwork) == 4
  {
    Prefix.MaskLengthOctets(MulticastNetwork);
    Prefix.BitsSetMaskOctets();
    Prefix.BitsSetZero(8);
  }

  /** Time to live of an outgoing datagram: 1 for multicast, else 32. */
  function Ttl(dst: Addr): byte
  {
    if Prefix.Match(MulticastAddr, MulticastNetwork, dst) == 4 then 1 else DefaultTtl
  }

  /** The header `ipv4_send` fills before the checksum: the total length is
      the payload length plus 20, truncated to 16 bits by `htons`. */
  function BaseHeader(src: Addr, dst: Addr, protocol: byte, payloadLen: nat): Header
  {
    Header(VersionIhl, TypeOfService, (payloadLen + HeaderSize) % 0x1_0000, 1, 0,
           Ttl(dst), protocol, 0, src, dst)
  }

  /** The datagram `ipv4_send` hands to the link: the header with the
      checksum computed over its 20 octets (checksum field zero) stored
      big-endian, then the payload. */
  function Datagram(src: Addr, dst: Addr, protocol: byte, payload: seq<byte>): (d: seq<byte>)
    ensures |d| == HeaderSize + |payload| && d[HeaderSize..] == payload
    ensures Checksum.Checksum(d[..HeaderSize]) == 0
    ensures var h := DecodeHeader(d);
            h.versionIhl == VersionIhl && h.tos == TypeOfService && h.id == 1 && h.flagsOffset == 0
            && h.totalLength == (|payload| + HeaderSize) % 0x1_0000 && h.protocol == protocol
            && h.src == src && h.dst == dst
            && h.ttl == (if IsMulticast(dst) then 1 else DefaultTtl)
  {
    var h := BaseHeader(src, dst, protocol, |payload|);
    var c := Checksum.Checksum(EncodeHeader(h));
    var hb := EncodeHeader(h.(checksum := c));
    var d := hb + payload;
    assert Checksum.Checksum(hb) == 0 by {
      SetChecksumIsWithWord(h, c);
      Checksum.ChecksumVerifies(EncodeHeader(h), 10);
    }
    HeaderThenPayload(hb, payload);
    DecodeEncodeHeader(h.(checksum := c));
    MulticastRange(dst);
    d
  }

  /** A header followed by a payload: the two parts are recovered by
      slicing and the header is decoded from the front. */
  lemma HeaderThenPayload(hb: seq<byte>, payload: seq<byte>)
    requires |hb| == HeaderSize
    ensures (hb + payload)[..HeaderSize] == hb && (hb + payload)[HeaderSize..] == payload
    ensures DecodeHeader(hb + payload) == DecodeHeader(hb)
  {
    var d := hb + payload;
    assert d[2..4] == hb[2..4] && d[4..6] == hb[4..6] && d[6..8] == hb[6..8];
    assert d[10..12] == hb[10..12] && d[12..16] == hb[12..16] && d[16..20] == hb[16..20];
  }

  /** The IPv4 layer handle: its own address (`ipv4_layer_t`). */
  datatype Layer = Layer(addr: Addr)

  /** Link destination of an outgoing frame: the multicast link address
      (`MAC_MULTICAST_ADDR`) or a resolved unicast address. */
  datatype LinkDest = MulticastMac | Unicast(mac: Mac)

  datatype Outgoing = Outgoing(dest: LinkDest, bytes: seq<byte>)

  /** Result of `ipv4_send`: the return value, the frame handed to the link
      if any, the address ARP was asked to resolve if any, and the gateway
      stored in the route after the call. */
  datatype SendResult = SendResult(code: int, out: Option<Outgoing>, arpTarget: Option<Addr>, storedGateway: Option<Addr>)

  /** `ipv4_send`. `route` is the gateway of the route the static table
      returns for `dst` (None when it returns none); `arpCode`/`arpMac` are
      what `arp_resolve` returns for the next hop, and `linkSent` what
      `eth_send` returns. A gateway of 0.0.0.0 means `dst` is on-link: it
      becomes the next hop and, as in the C code, is written into the stored
      route. */
  function Send(layer: Option<Layer>, route: Option<Addr>, dst: Addr, protocol: byte, payload: seq<byte>,
                arpCode: int, arpMac: Mac, linkSent: int): (r: SendResult)
    ensures (layer.None? || |payload| == 0 || route.None?) ==> r.code == -1 && r.out.None? && r.arpTarget.None?
    ensures r.out.Some? ==> layer.Some? && r.out.value.bytes == Datagram(layer.value.addr, dst, protocol, payload)
    ensures r.out.Some? ==> (r.out.value.dest.MulticastMac? <==> IsMulticast(dst))
    ensures r.arpTarget.Some? <==> layer.Some? && |payload| > 0 && route.Some? && !IsMulticast(dst)
    ensures r.arpTarget.Some? ==> r.arpTarget.value == (if route.value == ZeroAddr then dst else route.value)
    ensures r.out.Some? && !IsMulticast(dst) ==> arpCode > 0 && r.out.value.dest == Unicast(arpMac)
    ensures r.out.Some? ==> r.code == (if linkSent == -1 then -1 else linkSent - HeaderSize)
    ensures r.out.None? ==> r.code == -1
    ensures layer.Some? && |payload| > 0 && route.Some? && (IsMulticast(dst) || arpCode > 0) ==> r.out.Some?
  {
    if layer.None? || |payload| == 0 then SendResult(-1, None, None, route)
    else if route.None? then SendResult(-1, None, None, None)
    else
      var gw := route.value;
      var nextHop := if gw == ZeroAddr then dst else gw;
      var d := Datagram(layer.value.addr, dst, protocol, payload);
      MulticastRange(dst);
      if Prefix.Match(MulticastAddr, MulticastNetwork, dst) != 4 then
        if arpCode <= 0 then SendResult(-1, None, Some(nextHop), Some(nextHop))
        else
          SendResult(if linkSent == -1 then -1 else linkSent - HeaderSize,
                     Some(Outgoing(Unicast(arpMac), d)), Some(nextHop), Some(nextHop))
      else
        SendResult(if linkSent == -1 then -1 else linkSent - HeaderSize,
                   Some(Outgoing(MulticastMac, d)), None, Some(nextHop))
  }

  /** With a route, a resolvable next hop and the whole frame sent, the
      return value is the payload length. */
  lemma SendReturnsPayloadLength(layer: Layer, route: Addr, dst: Addr, protocol: byte, payload: seq<byte>, arpMac: Mac)
    requires |payload| > 0
    ensures var r := Send(Some(layer), Some(route), dst, protocol, payload, 1, arpMac, |payload| + HeaderSize);
            r.out.Some? && r.code == |payload|
  {
  }

  /** The stored-gateway overwrite: after a send through an on-link route
      (gateway 0.0.0.0) to `dst1`, the route's gateway is `dst1`, so a later
      send through the same route to another on-link host `dst2` resolves
      `dst1` instead of `dst2`. */
  lemma OnLinkRouteRemembersFirstDestination(layer: Layer, dst1: Addr, dst2: Addr, protocol: byte,
                                              p1: seq<byte>, p2: seq<byte>, mac: Mac, sent: int)
    requires |p1| > 0 && |p2| > 0 && dst1 != ZeroAddr
    requires !IsMulticast(dst1) && !IsMulticast(dst2)
    ensures var first := Send(Some(layer), Some(ZeroAddr), dst1, protocol, p1, 1, mac, sent);
            var second := Send(Some(layer), first.storedGateway, dst2, protocol, p2, 1, mac, sent);
            first.arpTarget == Some(dst1) && second.arpTarget == Some(dst1)
  {
  }

  /** What one `eth_recv` call returns: 0 when the wait expires, -1 on a
      link failure, otherwise a frame of the IPv4 ethertype. */
  datatype LinkEvent = LinkTimeout | LinkError | LinkFrame(bytes: seq<byte>)

  /** The value of `ipv4_recv`: 0, -1, or the payload length with the
      sender address and the copied bytes; Pending when the events run out
      before the function returns. */
  datatype RecvOutcome = RecvTimeout | RecvError | Received(length: int, sender: Addr, data: seq<byte>) | RecvPending

  datatype Reception = Reception(outcome: RecvOutcome, consumed: nat)

  /** `ipv4_recv` keeps a frame when it holds a whole header, carries the
      requested protocol and is addressed to the local address or to a
      multicast group. */
  predicate Accepts(local: Addr, protocol: byte, frame: seq<byte>)
  {
    |frame| >= HeaderSize && frame[9] == protocol && (frame[16..20] == local || IsMulticast(frame[16..20]))
  }

  /** The payload length an accepted frame declares: total length minus 20
      (negative when the declared total length is under 20). */
  function DeclaredLength(frame: seq<byte>): int
    requires |frame| >= HeaderSize
  {
    DecodeBe16(frame[2..4]) - HeaderSize
  }

  /** The octets copied to the caller's buffer: `min(bufferLen, declared)`
      of them, none when that is negative, and never more than the frame
      holds. */
  function Copied(frame: seq<byte>, bufferLen: int): (data: seq<byte>)
    requires |frame| >= HeaderSize
    ensures |data| <= |frame| - HeaderSize && data == frame[HeaderSize..HeaderSize + |data|]
    ensures 0 <= Min(bufferLen, DeclaredLength(frame)) <= |frame| - HeaderSize
            ==> |data| == Min(bufferLen, DeclaredLength(frame))
  {
    var n := Min(bufferLen, DeclaredLength(frame));
    var k := if n < 0 then 0 else Min(n, |frame| - HeaderSize);
    frame[HeaderSize..HeaderSize + k]
  }

  /** The event that ends a call of `ipv4_recv` and what the call returns
      for it: 0 for an expired wait, -1 for a link failure, and for an
      accepted frame its source, declared payload length and copied octets. */
  predicate Decides(local: Addr, protocol: byte, bufferLen: int, e: LinkEvent, o: RecvOutcome)
  {
    match e
    case LinkTimeout => o == RecvTimeout
    case LinkError => o == RecvError
    case LinkFrame(f) =>
      Accepts(local, protocol, f) && o == Received(DeclaredLength(f), f[12..16], Copied(f, bufferLen))
  }

  /** `ipv4_recv` for the local address `local`. */
  function Recv(local: Addr, protocol: byte, bufferLen: int, events: seq<LinkEvent>): (r: Reception)
    ensures r.consumed <= |events|
    ensures !r.outcome.RecvPending? ==> r.consumed >= 1
    ensures r.outcome.RecvPending? <==> r.consumed == |events| && forall j :: 0 <= j < |events| ==> events[j].LinkFrame? && !Accepts(local, protocol, events[j].bytes)
    ensures !r.outcome.RecvPending? ==>
              (forall j :: 0 <= j < r.consumed - 1 ==> events[j].LinkFrame? && !Accepts(local, protocol, events[j].bytes))
              && Decides(local, protocol, bufferLen, events[r.consumed - 1], r.outcome)
    decreases |events|
  {
    if |events| == 0 then Reception(RecvPending, 0)
    else
      match events[0]
      case LinkTimeout => Reception(RecvTimeout, 1)
      case LinkError => Reception(RecvError, 1)
      case LinkFrame(f) =>
        if Accepts(local, protocol, f) then Reception(Received(DeclaredLength(f), f[12..16], Copied(f, bufferLen)), 1)
        else
          var r := Recv(local, protocol, bufferLen, events[1..]);
          assert forall j :: 1 <= j < |events| ==> events[j] == events[1..][j - 1];
          Reception(r.outcome, r.consumed + 1)
  }

  /** A frame `ipv4_recv` does not accept is skipped: only the count of
      consumed events changes. */
  lemma RecvSkipsRejected(local: Addr, protocol: byte, bufferLen: int, frame: seq<byte>, events: seq<LinkEvent>)
    requires !Accepts(local, protocol, frame)
    ensures var r := Recv(local, protocol, bufferLen, [LinkFrame(frame)] + events);
            var s := Recv(local, protocol, bufferLen, events);
            r.outcome == s.outcome && r.consumed == s.consumed + 1
  {
    assert ([LinkFrame(frame)] + events)[1..] == events;
  }

  /** A datagram built by `ipv4_send` for the local address is received
      whole: its payload length, its source address and, when the buffer is
      large enough, its payload; a smaller buffer gets the payload's prefix. */
  lemma RecvSentDatagram(src: Addr, local: Addr, protocol: byte, payload: seq<byte>, bufferLen: int, events: seq<LinkEvent>)
    requires |payload| + HeaderSize < 0x1_0000
    requires bufferLen >= 0
    ensures var d := Datagram(src, local, protocol, payload);
            Recv(local, protocol, bufferLen, [LinkFrame(d)] + events)
              == Reception(Received(|payload|, src, payload[..Min(bufferLen, |payload|)]), 1)
  {
    var d := Datagram(src, local, protocol, payload);
    SentAccepted(src, local, protocol, payload);
    SentCopied(d, payload, bufferLen);
    RecvTakesAccepted(local, protocol, bufferLen, d, events);
  }

  lemma SentAccepted(src: Addr, local: Addr, protocol: byte, payload: seq<byte>)
    requires |payload| + HeaderSize < 0x1_0000
    ensures var d := Datagram(src, local, protocol, payload);
            Accepts(local, protocol, d) && d[12..16] == src && DeclaredLength(d) == |payload|
  {
    var d := Datagram(src, local, protocol, payload);
    var n := |payload| + HeaderSize;
    BelowModulus(n, 0x1_0000);
    assert DecodeHeader(d).totalLength == n;
    HeaderAccepted(d, local, protocol, src, |payload|);
  }

  lemma HeaderAccepted(d: seq<byte>, local: Addr, protocol: byte, src: Addr, n: nat)
    requires |d| >= HeaderSize
    requires var h := DecodeHeader(d);
             h.protocol == protocol && h.dst == local && h.src == src && h.totalLength == n + HeaderSize
    ensures Accepts(local, protocol, d) && d[12..16] == src && DeclaredLength(d) == n
  {
  }

  lemma SentCopied(d: seq<byte>, payload: seq<byte>, bufferLen: int)
    requires bufferLen >= 0 && |d| == HeaderSize + |payload| && d[HeaderSize..] == payload
    requires DeclaredLength(d) == |payload|
    ensures Copied(d, bufferLen) == payload[..Min(bufferLen, |payload|)]
  {
    assert d[HeaderSize..HeaderSize + Min(bufferLen, |payload|)] == payload[..Min(bufferLen, |payload|)];
  }

  lemma RecvTakesAccepted(local: Addr, protocol: byte, bufferLen: int, frame: seq<byte>, events: seq<LinkEvent>)
    requires Accepts(local, protocol, frame)
    ensures Recv(local, protocol, bufferLen, [LinkFrame(frame)] + events)
         == Reception(Received(DeclaredLength(frame), frame[12..16], Copied(frame, bufferLen)), 1)
  {
  }
}

=== FILE: ipv4_text.dfy ===
/** Dotted-quad text for IPv4 addresses and the `%d` / `atoi` integer
    scanning the text formats rely on (`ipv4_addr_str`, `ipv4_str_addr` in
    ipv4.c). */
module Ipv4Text {
  import opened Wire

  /** Characters `isspace` accepts in the C locale. */
  predicate IsSpace(c: char)
  {
    c == ' ' || c == '\t' || c == '\n' || c == '\r' || c as int == 0x0B || c as int == 0x0C
  }

  predicate IsDigit(c: char)
  {
    '0' <= c <= '9'
  }

  function DigitValue(c: char): nat
    requires IsDigit(c)
  {
    c as int - '0' as int
  }

  function DigitChar(d: nat): (c: char)
    requires d < 10
    ensures IsDigit(c) && DigitValue(c) == d
  {
    ('0' as int + d) as char
  }

  /** `printf("%d", n)` for a non-negative `n`: decimal, no leading zeros. */
  function Decimal(n: nat): (s: string)
    ensures 1 <= |s|
    ensures forall i :: 0 <= i < |s| ==> IsDigit(s[i])
    decreases n
  {
    if n < 10 then [DigitChar(n)] else Decimal(n / 10) + [DigitChar(n % 10)]
  }

  /** The value of a string of decimal digits. */
  function DecimalValue(s: string): nat
    requires forall i :: 0 <= i < |s| ==> IsDigit(s[i])
    decreases |s|
  {
    if |s| == 0 then 0 else DecimalValue(s[..|s| - 1]) * 10 + DigitValue(s[|s| - 1])
  }

  /** Number of leading digit characters. */
  function DigitRun(s: string): (k: nat)
    ensures k <= |s|
    ensures forall i :: 0 <= i < k ==> IsDigit(s[i])
    ensures k < |s| ==> !IsDigit(s[k])
  {
    if |s| == 0 || !IsDigit(s[0]) then 0 else 1 + DigitRun(s[1..])
  }

  /** Number of leading white-space characters. */
  function SpaceRun(s: string): (k: nat)
    ensures k <= |s|
    ensures k < |s| ==> !IsSpace(s[k])
  {
    if |s| == 0 || !IsSpace(s[0]) then 0 else 1 + SpaceRun(s[1..])
  }

  /** One `%d` conversion: skip white space, an optional sign, then at least
      one digit. Yields the value and the unread rest of the text, or None
      when no digit follows (a matching failure). Values are unbounded: the C
      conversion has undefined behaviour when the number does not fit an
      `int`. */
  function ScanInt(s: string): (r: Option<(int, string)>)
    ensures r.Some? ==> |r.value.1| < |s|
  {
    var t := s[SpaceRun(s)..];
    var neg := |t| > 0 && t[0] == '-';
    var u := if |t| > 0 && (t[0] == '-' || t[0] == '+') then t[1..] else t;
    var k := DigitRun(u);
    if k == 0 then None
    else
      var v: int := DecimalValue(u[..k]);
      Some((if neg then -v else v, u[k..]))
  }

  /** `atoi`: the value of a leading `%d` number, 0 when there is none. */
  function Atoi(s: string): int
  {
    match ScanInt(s)
    case None => 0
    case Some((v, _)) => v
  }

  /** The octet `(unsigned char)` keeps of an `int`: its low eight bits. */
  function LowOctet(v: int): byte
  {
    v % 0x100
  }

  /** The address whose octets are the low eight bits of four integers. */
  function Octets(v0: int, v1: int, v2: int, v3: int): (a: Addr)
    ensures a[0] == LowOctet(v0) && a[1] == LowOctet(v1) && a[2] == LowOctet(v2) && a[3] == LowOctet(v3)
  {
    [LowOctet(v0), LowOctet(v1), LowOctet(v2), LowOctet(v3)]
  }

  /** A literal `.` followed by one `%d` conversion. */
  function ScanDotInt(s: string): (r: Option<(int, string)>)
  {
    if |s| == 0 || s[0] != '.' then None else ScanInt(s[1..])
  }

  /** The integers `sscanf(s, "%d.%d.%d.%d")` converts, in order, up to
      the first matching failure; `sscanf` returns how many there are. */
  function Conversions(s: string): (vs: seq<int>)
    ensures |vs| <= 4
  {
    var p := ScanInt(s);
    if p.None? then [] else [p.value.0] + DotConversions(p.value.1, 3)
  }

  /** Up to `n` further `.%d` conversions. */
  function DotConversions(s: string, n: nat): (vs: seq<int>)
    ensures |vs| <= n
    decreases n
  {
    if n == 0 then []
    else
      var p := ScanDotInt(s);
      if p.None? then [] else [p.value.0] + DotConversions(p.value.1, n - 1)
  }

  /** `ipv4_str_addr` on a non-NULL string: `sscanf(str, "%d.%d.%d.%d")`
      must convert all four integers (anything after the fourth is ignored),
      and each is stored as its low eight bits; None where the C function
      returns -1. */
  function ParseAddr(s: string): (r: Option<Addr>)
    ensures r.Some? <==> |Conversions(s)| == 4
    ensures r.Some? ==> var vs := Conversions(s);
                        r.value == [LowOctet(vs[0]), LowOctet(vs[1]), LowOctet(vs[2]), LowOctet(vs[3])]
  {
    var vs := Conversions(s);
    if |vs| < 4 then None else Some(Octets(vs[0], vs[1], vs[2], vs[3]))
  }


  /** `ipv4_str_addr` with the NULL case: a missing string is rejected. */
  function StrAddr(str: Option<string>): (r: Option<Addr>)
    ensures str.None? ==> r.None?
    ensures str.Some? ==> (r.Some? <==> |Conversions(str.value)| == 4)
    ensures r.Some? ==> str.Some? && var vs := Conversions(str.value);
                        r.value == [LowOctet(vs[0]), LowOctet(vs[1]), LowOctet(vs[2]), LowOctet(vs[3])]
  {
    match str
    case None => None
    case Some(s) => ParseAddr(s)
  }

  /** `ipv4_addr_str`: `"%d.%d.%d.%d"` of the four octets. */
  function AddrStr(a: Addr): (s: string)
    ensures |s| <= 15
  {
    DecimalShort(a[0]);
    DecimalShort(a[1]);
    DecimalShort(a[2]);
    DecimalShort(a[3]);
    Decimal(a[0]) + "." + Decimal(a[1]) + "." + Decimal(a[2]) + "." + Decimal(a[3])
  }

  lemma {:induction false} DecimalShort(n: nat)
    requires n < 1000
    ensures |Decimal(n)| <= 3
  {
    if n >= 10 {
      DecimalShort(n / 10);
      if n / 10 >= 10 {
        assert n / 100 < 10;
        assert |Decimal(n / 10)| == 2;
      }
    }
  }

  lemma {:induction false} DecimalRoundTrip(n: nat)
    ensures DecimalValue(Decimal(n)) == n
    decreases n
  {
    if n >= 10 {
      var s := Decimal(n);
      assert s[..|s| - 1] == Decimal(n / 10);
      DecimalRoundTrip(n / 10);
    }
  }

  lemma {:induction false} DigitRunAppend(d: string, r: string)
    requires forall i :: 0 <= i < |d| ==> IsDigit(d[i])
    requires |r| == 0 || !IsDigit(r[0])
    ensures DigitRun(d + r) == |d|
    decreases |d|
  {
    if |d| > 0 {
      assert (d + r)[1..] == d[1..] + r;
      DigitRunAppend(d[1..], r);
    } else {
      assert d + r == r;
    }
  }

  /** `%d` reads back what `%d` printed, stopping at the next non-digit. */
  lemma ScanDecimal(n: nat, r: string)
    requires |r| == 0 || !IsDigit(r[0])
    ensures ScanInt(Decimal(n) + r) == Some((n as int, r))
  {
    var s := Decimal(n) + r;
    assert !IsSpace(s[0]) && s[0] != '-' && s[0] != '+';
    assert SpaceRun(s) == 0;
    DigitRunAppend(Decimal(n), r);
    assert s[..|Decimal(n)|] == Decimal(n);
    assert s[|Decimal(n)|..] == r;
    DecimalRoundTrip(n);
  }

  lemma ScanDotDecimal(n: nat, r: string)
    requires |r| == 0 || !IsDigit(r[0])
    ensures ScanDotInt("." + Decimal(n) + r) == Some((n as int, r))
  {
    assert ("." + Decimal(n) + r)[1..] == Decimal(n) + r;
    ScanDecimal(n, r);
  }

  lemma OctetsOfAddr(a: Addr)
    ensures Octets(a[0], a[1], a[2], a[3]) == a
  {
    var o := Octets(a[0], a[1], a[2], a[3]);
    assert a[0] % 0x100 == a[0] && a[1] % 0x100 == a[1];
    assert a[2] % 0x100 == a[2] && a[3] % 0x100 == a[3];
    assert forall i | 0 <= i < 4 :: o[i] == a[i];
  }

  /** Four successful conversions in a row are exactly what `Conversions` lists. */
  lemma FourConversions(s: string, s1: string, s2: string, s3: string, s4: string, v0: int, v1: int, v2: int, v3: int)
    requires ScanInt(s) == Some((v0, s1))
    requires ScanDotInt(s1) == Some((v1, s2))
    requires ScanDotInt(s2) == Some((v2, s3))
    requires ScanDotInt(s3) == Some((v3, s4))
    ensures Conversions(s) == [v0, v1, v2, v3]
  {
    LastConversion(s3, v3, s4);
    ThirdConversion(s2, v2, s3, v3);
    SecondConversion(s1, v1, s2, v2, v3);
    FirstConversion(s, v0, s1, v1, v2, v3);
  }

  lemma LastConversion(s: string, v3: int, rest: string)
    requires ScanDotInt(s) == Some((v3, rest))
    ensures DotConversions(s, 1) == [v3]
  {
    assert DotConversions(rest, 0) == [];
  }

  lemma ThirdConversion(s: string, v2: int, rest: string, v3: int)
    requires ScanDotInt(s) == Some((v2, rest)) && DotConversions(rest, 1) == [v3]
    ensures DotConversions(s, 2) == [v2, v3]
  {
    assert DotConversions(s, 2) == [v2] + [v3];
  }

  lemma SecondConversion(s: string, v1: int, rest: string, v2: int, v3: int)
    requires ScanDotInt(s) == Some((v1, rest)) && DotConversions(rest, 2) == [v2, v3]
    ensures DotConversions(s, 3) == [v1, v2, v3]
  {
    assert DotConversions(s, 3) == [v1] + [v2, v3];
  }

  lemma FirstConversion(s: string, v0: int, rest: string, v1: int, v2: int, v3: int)
    requires ScanInt(s) == Some((v0, rest)) && DotConversions(rest, 3) == [v1, v2, v3]
    ensures Conversions(s) == [v0, v1, v2, v3]
  {
    assert Conversions(s) == [v0] + DotConversions(rest, 3);
    ConsFour(v0, v1, v2, v3);
  }

  /** Printing an address and parsing the text back gives the address. */
  lemma AddrRoundTrip(a: Addr)
    ensures ParseAddr(AddrStr(a)) == Some(a)
  {
    var d0, d1, d2, d3 := Decimal(a[0]), Decimal(a[1]), Decimal(a[2]), Decimal(a[3]);
    var s3 := "." + d3 + "";
    var s2 := "." + d2 + s3;
    var s1 := "." + d1 + s2;
    var s := d0 + s1;
    assert AddrStr(a) == s;
    ScanDecimal(a[0], s1);
    ScanDotDecimal(a[1], s2);
    ScanDotDecimal(a[2], s3);
    ScanDotDecimal(a[3], "");
    assert ScanInt(s) == Some((a[0] as int, s1));
    assert ScanDotInt(s1) == Some((a[1] as int, s2));
    assert ScanDotInt(s2) == Some((a[2] as int, s3));
    assert ScanDotInt(s3) == Some((a[3] as int, ""));
    FourConversions(s, s1, s2, s3, "", a[0], a[1], a[2], a[3]);
    OctetsOfAddr(a);
    assert ParseAddr(s) == Some(a);
  }
}

=== FILE: prefix.dfy ===
/** Subnet matching shared by the route tables: the octet-wise test
    `(addr[i] & mask[i]) == subnet[i]` and the prefix length counted as the
    one-bits of the mask (`ripv2_switch_lookup`, `ripv2_route_lookup`). */
module Prefix {
  import opened Wire

  /** Bitwise AND of two octets (C `&` on `unsigned char`). */
  function And(a: byte, b: byte): byte
  {
    ((a as bv8) & (b as bv8)) as int
  }

  function Pow2(k: nat): (p: nat)
    ensures p >= 1
  {
    if k == 0 then 1 else 2 * Pow2(k - 1)
  }

  /** Number of one-bits among the `k` least significant bits of `b`. */
  function BitsSet(b: nat, k: nat): (n: nat)
    ensures n <= k
  {
    if k == 0 then 0 else b % 2 + BitsSet(b / 2, k - 1)
  }

  /** `ripv2_switch_lookup`: shift the octet right until it is zero, adding
      its low bit each time. */
  function OnesIn(mask: byte): nat
    decreases mask
  {
    if mask == 0 then 0 else mask % 2 + OnesIn(mask / 2)
  }

  lemma {:induction false} OnesInBitsSet(x: byte, k: nat)
    requires x < Pow2(k)
    ensures OnesIn(x) == BitsSet(x, k)
    decreases k
  {
    if k > 0 {
      OnesInBitsSet(x / 2, k - 1);
    }
  }

  /** The shift loop counts exactly the one-bits of the octet, so it yields
      0..8. */
  lemma OnesInCountsBits(mask: byte)
    ensures OnesIn(mask) == BitsSet(mask, 8) <= 8
  {
    assert Pow2(8) == 256;
    OnesInBitsSet(mask, 8);
  }

  /** `addr` lies in the subnet: every octet of `addr` masked equals the
      corresponding subnet octet. */
  predicate Covers(subnet: Addr, mask: Addr, addr: Addr)
  {
    forall i :: 0 <= i < 4 ==> And(addr[i], mask[i]) == subnet[i]
  }

  /** Number of one-bits in octets `i..3` of a mask. */
  function MaskBits(mask: Addr, i: nat): (n: nat)
    requires i <= 4
    ensures n <= 8 * (4 - i)
    decreases 4 - i
  {
    if i == 4 then 0 else BitsSet(mask[i], 8) + MaskBits(mask, i + 1)
  }

  /** The prefix length of a mask: its one-bits, 0..32. */
  function MaskLength(mask: Addr): (n: nat)
    ensures n <= 32
  {
    MaskBits(mask, 0)
  }

  /** The loop of `ripv2_route_lookup` from octet `i` on: -1 at the first
      octet that does not match, otherwise the one-bits of the mask. */
  function MatchFrom(subnet: Addr, mask: Addr, addr: Addr, i: nat): (r: int)
    requires i <= 4
    ensures r == -1 <==> exists j :: i <= j < 4 && And(addr[j], mask[j]) != subnet[j]
    ensures r != -1 ==> r == MaskBits(mask, i)
    decreases 4 - i
  {
    if i == 4 then 0
    else if And(addr[i], mask[i]) != subnet[i] then -1
    else
      var rest := MatchFrom(subnet, mask, addr, i + 1);
      OnesInCountsBits(mask[i]);
      if rest == -1 then -1 else OnesIn(mask[i]) + rest
  }

  /** `ripv2_route_lookup` (and the same test applied by `ipv4_send` to the
      multicast network): -1 when `addr` is outside the subnet, otherwise the
      prefix length of the mask. */
  function Match(subnet: Addr, mask: Addr, addr: Addr): (r: int)
    ensures r == -1 <==> !Covers(subnet, mask, addr)
    ensures r != -1 ==> r == MaskLength(mask) && 0 <= r <= 32
  {
    MatchFrom(subnet, mask, addr, 0)
  }

  /** The prefix length is the sum of the octets' one-bits. */
  lemma MaskLengthOctets(mask: Addr)
    ensures MaskLength(mask) == BitsSet(mask[0], 8) + BitsSet(mask[1], 8) + BitsSet(mask[2], 8) + BitsSet(mask[3], 8)
  {
    assert MaskBits(mask, 3) == BitsSet(mask[3], 8);
  }

  lemma {:induction false} BitsSetZero(k: nat)
    ensures BitsSet(0, k) == 0
  {
    if k > 0 {
      BitsSetZero(k - 1);
    }
  }

  /** The one-bits of the mask octets the tables use: 255 and 240. */
  lemma BitsSetMaskOctets()
    ensures BitsSet(255, 8) == 8 && BitsSet(240, 8) == 4
  {
    assert BitsSet(1, 1) == 1 by { assert BitsSet(0, 0) == 0; }
    assert BitsSet(3, 2) == 2;
    assert BitsSet(7, 3) == 3;
    assert BitsSet(15, 4) == 4;
    assert BitsSet(31, 5) == 5;
    assert BitsSet(63, 6) == 6;
    assert BitsSet(127, 7) == 7;
    assert BitsSet(30, 5) == 4;
    assert BitsSet(60, 6) == 4;
    assert BitsSet(120, 7) == 4;
  }

  lemma AndZero(a: byte)
    ensures And(a, 0) == 0
  {
  }

  /** Masking an octet with 0xF0 gives 0xE0 exactly for 224..239. */
  lemma AndMulticastNibble(a: byte)
    ensures And(a, 0xF0) == 0xE0 <==> 0xE0 <= a < 0xF0
  {
  }
}

=== FILE: rip_message.dfy ===
/** The RIPv2 message of RFC 2453 section 4 as ripv2_server.c lays it out in
    `ripv2_msg_t`: a 4-octet header (command, version, unused routing
    domain) followed by 20-octet route entries, multi-octet fields in
    network byte order. Also the arithmetic the server does on received
    fields in host byte order on a little-endian host. */
module RipMessage {
  import opened Wire
  import RipTable

  /** `RIPv2_REQUEST`. */
  const Request := 1
  /** `RIPv2_RESPONSE`. */
  const Response := 2
  /** `RIPv2_TYPE_VERSION`. */
  const Version := 2
  /** `RIP_PORT`. */
  const Port := 520
  /** `RIP_HEADER_SIZE`. */
  const HeaderSize := 4
  /** `sizeof(entrada_rip_t)`. */
  const EntrySize := 20
  /** `sizeof(ripv2_msg_t)`: the header and room for a full table. */
  const BufferSize := HeaderSize + RipTable.Capacity * EntrySize

  /** One route entry on the wire: family and tag (16 bits each), subnet,
      mask, next hop and the 32-bit metric. */
  function EncodeEntry(r: RipTable.Route): (b: seq<byte>)
    ensures |b| == EntrySize
  {
    EncodeBe16(r.family) + EncodeBe16(r.tag) + r.subnet + r.mask + r.gw + EncodeBe32(r.metric)
  }

  function DecodeEntry(b: seq<byte>): (r: RipTable.Route)
    requires |b| == EntrySize
    ensures r.subnet == b[4..8] && r.mask == b[8..12] && r.gw == b[12..16]
  {
    RipTable.Route(DecodeBe16(b[0..2]), DecodeBe16(b[2..4]), b[4..8], b[8..12], b[12..16], DecodeBe32(b[16..20]))
  }

  lemma DecodeEncodeEntry(r: RipTable.Route)
    ensures DecodeEntry(EncodeEntry(r)) == r
  {
    var b := EncodeEntry(r);
    assert b[0..2] == EncodeBe16(r.family);
    assert b[2..4] == EncodeBe16(r.tag);
    assert b[4..8] == r.subnet && b[8..12] == r.mask && b[12..16] == r.gw;
    assert b[16..20] == EncodeBe32(r.metric);
  }

  lemma EncodeDecodeEntry(b: seq<byte>)
    requires |b| == EntrySize
    ensures EncodeEntry(DecodeEntry(b)) == b
  {
    Be16Injective(b[0..2]);
    Be16Injective(b[2..4]);
    Be32Injective(b[16..20]);
    assert b == b[0..2] + b[2..4] + b[4..8] + b[8..12] + b[12..16] + b[16..20];
  }

  function EncodeEntries(es: seq<RipTable.Route>): (b: seq<byte>)
    ensures |b| == EntrySize * |es|
  {
    if |es| == 0 then [] else EncodeEntry(es[0]) + EncodeEntries(es[1..])
  }

  /** A message as handed to `udp_send`: header, then the entries; its
      length is `sizeof(entrada_rip_t) * index + RIP_HEADER_SIZE`. */
  function Encode(command: byte, es: seq<RipTable.Route>): (m: seq<byte>)
    ensures |m| == HeaderSize + EntrySize * |es|
    ensures m[0] == command && m[1] == Version && m[2] == 0 && m[3] == 0
  {
    [command, Version, 0, 0] + EncodeEntries(es)
  }

  /** The octets of entry `i` of a message. */
  function EntrySlice(m: seq<byte>, i: nat): seq<byte>
    requires HeaderSize + EntrySize * (i + 1) <= |m|
  {
    m[HeaderSize + EntrySize * i..HeaderSize + EntrySize * (i + 1)]
  }

  lemma {:induction false} EncodeEntriesAt(es: seq<RipTable.Route>, i: nat)
    requires i < |es|
    ensures EncodeEntries(es)[EntrySize * i..EntrySize * (i + 1)] == EncodeEntry(es[i])
    decreases i
  {
    var b := EncodeEntries(es);
    if i > 0 {
      EncodeEntriesAt(es[1..], i - 1);
      assert b[EntrySize * i..EntrySize * (i + 1)]
          == EncodeEntries(es[1..])[EntrySize * (i - 1)..EntrySize * i];
    }
  }

  /** Entry `i` of an encoded message is the encoding of the `i`th route. */
  lemma EncodeAt(command: byte, es: seq<RipTable.Route>, i: nat)
    requires i < |es|
    ensures EntrySlice(Encode(command, es), i) == EncodeEntry(es[i])
  {
    EncodeEntriesAt(es, i);
    assert EntrySlice(Encode(command, es), i) == EncodeEntries(es)[EntrySize * i..EntrySize * (i + 1)];
  }

  /** The server's receive buffer after `udp_recv` copied `data` into it:
      at most `sizeof(ripv2_msg_t)` octets are copied; the octets past them
      hold whatever an earlier datagram left, modelled as zeros. */
  function Buffer(data: seq<byte>): (b: seq<byte>)
    ensures |b| == BufferSize
    ensures b[..Min(|data|, BufferSize)] == data[..Min(|data|, BufferSize)]
  {
    var n := Min(|data|, BufferSize);
    data[..n] + seq(BufferSize - n, i => 0)
  }

  /** `buffer.entrada[i]` read in host byte order. */
  function EntryIn(buffer: seq<byte>, i: nat): RipTable.Route
    requires |buffer| == BufferSize && i < RipTable.Capacity
  {
    DecodeEntry(EntrySlice(buffer, i))
  }

  /** The entries the server's loops visit for an entry count `n`: none for
      a count of zero or below, and never more than the buffer holds. */
  function Entries(buffer: seq<byte>, n: int): (es: seq<RipTable.Route>)
    requires |buffer| == BufferSize
    ensures |es| == if n <= 0 then 0 else Min(n, RipTable.Capacity)
    ensures forall i :: 0 <= i < |es| ==> es[i] == EntryIn(buffer, i)
  {
    var k := if n <= 0 then 0 else Min(n, RipTable.Capacity);
    seq(k, i requires 0 <= i < k => EntryIn(buffer, i))
  }

  /** A message of up to 25 entries, received whole, is read back entry for
      entry. */
  lemma EntriesOfEncoded(command: byte, es: seq<RipTable.Route>)
    requires |es| <= RipTable.Capacity
    ensures Entries(Buffer(Encode(command, es)), |es|) == es
  {
    var m := Encode(command, es);
    var b := Buffer(m);
    forall i | 0 <= i < |es|
      ensures EntryIn(b, i) == es[i]
    {
      assert EntrySlice(b, i) == EntrySlice(m, i);
      EncodeAt(command, es, i);
      DecodeEncodeEntry(es[i]);
    }
  }

  /** `(bytes - RIP_HEADER_SIZE) / sizeof(entrada_rip_t)` as intended: the
      number of whole entries after the header, none for a datagram shorter
      than the header. */
  function EntryCount(bytes: int): (n: int)
    ensures n >= 0
    ensures n > 0 <==> bytes >= HeaderSize + EntrySize
    ensures bytes >= HeaderSize ==> HeaderSize + EntrySize * n <= bytes < HeaderSize + EntrySize * (n + 1)
  {
    if bytes < HeaderSize then 0 else (bytes - HeaderSize) / EntrySize
  }

  /** Conversion of an integer to a 32-bit two's complement `int`. */
  function ToInt32(x: int): (n: int)
    ensures -0x8000_0000 <= n < 0x8000_0000
    ensures (n - x) % 0x1_0000_0000 == 0
  {
    var m := x % 0x1_0000_0000;
    if m < 0x8000_0000 then m else m - 0x1_0000_0000
  }

  /** The count as the C code computes it: `bytes - 4` is converted to the
      64-bit unsigned `size_t` of `sizeof` before the division, and the
      quotient is stored back into an `int`. */
  function EntryCountAsWritten(bytes: int): int
  {
    ToInt32(((bytes - HeaderSize) % 0x1_0000_0000_0000_0000) / EntrySize)
  }

  /** For datagrams at least as long as the header the two counts agree. */
  lemma EntryCountAgrees(bytes: int)
    requires HeaderSize <= bytes < 0x8000_0000
    ensures EntryCountAsWritten(bytes) == EntryCount(bytes)
  {
  }

  /** A datagram of one to three octets: the unsigned wrap-around makes the
      written count a large negative number rather than zero. */
  lemma EntryCountShortDatagram(bytes: int)
    requires 0 < bytes < HeaderSize
    ensures EntryCountAsWritten(bytes) == -858993460 && EntryCount(bytes) == 0
  {
    WrappedQuotient(bytes - HeaderSize);
    assert ToInt32(922337203685477580) == -858993460 by {
      assert 922337203685477580 == 214748364 * 0x1_0000_0000 + 3435973836;
    }
  }

  /** -3, -2 and -1 as `size_t`, divided by 20. */
  lemma WrappedQuotient(x: int)
    requires -3 <= x <= -1
    ensures (x % 0x1_0000_0000_0000_0000) / EntrySize == 922337203685477580
  {
    var w := x + 0x1_0000_0000_0000_0000;
    assert x % 0x1_0000_0000_0000_0000 == w;
    assert w == EntrySize * 922337203685477580 + (x + 16);
  }

  /** `entry.metric + htonl(1)` on the raw network-order field of a
      little-endian host, read back with `ntohl`. */
  function NetIncrement(m: u32): u32
  {
    Swap32((Swap32(m) + Swap32(1)) % 0x1_0000_0000)
  }

  /** The swap of a value below 256 moves it to the top octet. */
  lemma SwapSmall(m: u32)
    requires m < 0x100
    ensures Swap32(m) == m * 0x100_0000
  {
    var b := EncodeBe32(m);
    assert b == [0, 0, 0, m] by {
      assert EncodeBe16(m / 0x1_0000) == [0, 0];
      assert EncodeBe16(m % 0x1_0000) == [0, m];
    }
    Be32Injective([m, 0, 0, 0]);
  }

  /** The swap of a value in the top octet moves it back down. */
  lemma SwapTop(v: nat)
    requires v < 0x100
    ensures Swap32(v * 0x100_0000) == v
  {
    var b := EncodeBe32(v * 0x100_0000);
    assert b == [v, 0, 0, 0] by {
      assert EncodeBe16(v * 0x100_0000 / 0x1_0000) == [v, 0];
      assert EncodeBe16(v * 0x100_0000 % 0x1_0000) == [0, 0];
    }
    Be32Injective([0, 0, 0, v]);
  }

  /** For every metric the server does not skip (0..15), the network-order
      increment is the plain successor. */
  lemma NetIncrementIsSuccessor(m: u32)
    requires m <= 15
    ensures NetIncrement(m) == m + 1
  {
    SwapSmall(m);
    SwapSmall(1);
    assert (Swap32(m) + Swap32(1)) % 0x1_0000_0000 == (m + 1) * 0x100_0000;
    SwapTop(m + 1);
  }

  /** `entry.family_directions = ntohl(entry.family_directions)`: the raw
      16-bit field goes through a 32-bit swap and is truncated back to 16
      bits. */
  function LearnedFamily(f: u16): u16
  {
    Swap32(Swap16(f)) % 0x1_0000
  }

  /** On a little-endian host a learned route's family is always 0. */
  lemma LearnedFamilyIsZero(f: u16)
    ensures LearnedFamily(f) == 0
  {
    var x := Swap16(f);
    var b := EncodeBe32(x);
    assert b == [0, 0, x / 0x100, x % 0x100] by {
      assert EncodeBe16(x / 0x1_0000) == [0, 0];
    }
    var r := Swap32(x);
    assert EncodeBe32(r) == [x % 0x100, x / 0x100, 0, 0];
    assert r == DecodeBe32([x % 0x100, x / 0x100, 0, 0]);
  }
}

=== FILE: rip_server.dfy ===
/** The per-datagram work of the RIPv2 server loop (ripv2_server.c): the
    wait bounded by the least route timer, the expiry sweep, the checks that
    discard a datagram, the answer to a REQUEST and the distance-vector
    update for a RESPONSE. The UDP layer is abstracted to what `udp_recv`
    hands back and the argument `udp_send` is given. */
module RipServer {
  import opened Wire
  import opened RipTable
  import opened RipMessage

  /** The route table with its per-slot timers. */
  datatype State = State(table: Table, timers: Timers)

  /** What `udp_recv` returned: its value, the sender's address and port,
      and the octets it copied into the buffer. */
  datatype Datagram = Datagram(bytes: int, sender: Addr, port: u16, data: seq<byte>)

  /** The arguments of a `udp_send` call: destination, port and payload. */
  datatype Reply = Reply(dst: Addr, port: u16, payload: seq<byte>)

  datatype Outcome = Outcome(state: State, reply: Option<Reply>)

  /** The timeout the loop gives `udp_recv`: the least time left on an
      occupied slot, -1 (wait for ever) when the table is empty. */
  function WaitTime(s: State): (ms: int)
    ensures ms == -1 <==> forall j :: 0 <= j < Capacity ==> s.table[j].None?
    ensures ms >= 0 ==> forall j :: 0 <= j < Capacity && s.table[j].Some? ==> ms <= s.timers[j]
    ensures ms >= 0 ==> exists j :: 0 <= j < Capacity && s.table[j].Some? && ms == s.timers[j]
  {
    TimeLeft(s.table, s.timers)
  }

  /** `ripv2_route_table_remove_expired` on the state. */
  function Sweep(s: State): (r: State)
    ensures r.timers == s.timers
    ensures forall i :: 0 <= i < Capacity ==> r.table[i] == if Expired(s.table, s.timers, i) then None else s.table[i]
  {
    State(Swept(s.table, s.timers), s.timers)
  }

  /** The occupied slots' routes in slot order. */
  function Occupants(t: seq<Option<Route>>): (rs: seq<Route>)
    ensures |rs| == Occupied(t)
    ensures forall k :: 0 <= k < |rs| ==> Some(rs[k]) in t
    ensures forall j :: 0 <= j < |t| && t[j].Some? ==> t[j].value in rs
    ensures forall j :: 0 <= j < |t| && t[j].Some? ==> Occupied(t[..j]) < |rs| && rs[Occupied(t[..j])] == t[j].value
  {
    if |t| == 0 then []
    else
      var rest := Occupants(t[1..]);
      OccupantsCons(t, t[1..], rest);
      if t[0].Some? then [t[0].value] + rest else rest
  }

  /** The occupants of a slot sequence are those of its first slot followed
      by those of the slots after it. */
  lemma OccupantsCons(t: seq<Option<Route>>, u: seq<Option<Route>>, rest: seq<Route>)
    requires |t| > 0 && u == t[1..]
    requires |rest| == Occupied(u)
    requires forall k :: 0 <= k < |rest| ==> Some(rest[k]) in u
    requires forall j :: 0 <= j < |u| && u[j].Some? ==> Occupied(u[..j]) < |rest| && rest[Occupied(u[..j])] == u[j].value
    ensures var rs := if t[0].Some? then [t[0].value] + rest else rest;
            |rs| == Occupied(t)
            && (forall k :: 0 <= k < |rs| ==> Some(rs[k]) in t)
            && (forall j :: 0 <= j < |t| && t[j].Some? ==> t[j].value in rs)
            && (forall j :: 0 <= j < |t| && t[j].Some? ==> Occupied(t[..j]) < |rs| && rs[Occupied(t[..j])] == t[j].value)
  {
    var rs := if t[0].Some? then [t[0].value] + rest else rest;
    assert forall k :: 0 <= k < |rest| ==> Some(rest[k]) in t by {
      assert forall x :: x in u ==> x in t;
    }
    forall j | 0 <= j < |t| && t[j].Some?
      ensures Occupied(t[..j]) < |rs| && rs[Occupied(t[..j])] == t[j].value
    {
      if j > 0 {
        assert t[j] == u[j - 1];
        OccupiedPrefixStep(t, j);
      }
    }
  }

  /** Counting the occupied slots before slot `j` looks at the first slot
      and then at the `j - 1` after it. */
  lemma OccupiedPrefixStep(t: seq<Option<Route>>, j: nat)
    requires 1 <= j <= |t|
    ensures Occupied(t[..j]) == (if t[0].Some? then 1 else 0) + Occupied(t[1..][..j - 1])
  {
    assert t[..j][1..] == t[1..][..j - 1];
  }

  /** The request for the whole table: exactly one entry, family 0 and an
      unreachable metric (section 3.9.1 of RFC 2453). */
  predicate AsksForAll(es: seq<Route>)
  {
    |es| == 1 && es[0].family == 0 && IsInfinite(es[0].metric)
  }

  /** The metric a specific request is answered with: the table's metric
      for the route with the same subnet and mask, unreachable otherwise. */
  function MetricFor(t: Table, e: Route): (m: u32)
    ensures Find(t, e.subnet, e.mask) == -1 ==> m == Infinity
    ensures Find(t, e.subnet, e.mask) != -1 ==>
              exists i :: 0 <= i < Capacity && HasKey(t[i], e.subnet, e.mask) && m == t[i].value.metric
  {
    var f := Find(t, e.subnet, e.mask);
    if f < 0 then Infinity else t[f].value.metric
  }

  /** The entries of the answer to a REQUEST. */
  function Answer(t: Table, es: seq<Route>): (rs: seq<Route>)
    ensures AsksForAll(es) ==> rs == Occupants(t)
    ensures !AsksForAll(es) ==>
              |rs| == |es| && forall i :: 0 <= i < |es| ==> rs[i] == es[i].(metric := MetricFor(t, es[i]))
  {
    if AsksForAll(es) then Occupants(t)
    else seq(|es|, i requires 0 <= i < |es| => es[i].(metric := MetricFor(t, es[i])))
  }

  /** The route learnt from a RESPONSE entry: next hop the sender, the
      increased metric, the family passed through `ntohl`, subnet, mask and
      tag as received. */
  function Learnt(e: Route, sender: Addr, metric: u32): (r: Route)
    ensures r.family == 0 && r.gw == sender && r.metric == metric
    ensures r.subnet == e.subnet && r.mask == e.mask && r.tag == e.tag
  {
    LearnedFamilyIsZero(e.family);
    Route(LearnedFamily(e.family), e.tag, e.subnet, e.mask, sender, metric)
  }

  /** A learnt route added in the lowest free slot with its timer
      restarted; a full table is left alone. */
  function Insert(s: State, route: Route): (r: State)
    ensures var a := Add(s.table, route);
            if a.index == -1 then r == s
            else r.table == a.table && r.timers == s.timers[a.index := DefaultTimeout]
  {
    var a := Add(s.table, route);
    if a.index == -1 then s else State(a.table, s.timers[a.index := DefaultTimeout])
  }

  /** The rules for a route already in slot `f` and a received metric
      increased to `m`: from the same neighbour the timer restarts and the
      metric is replaced, even by a worse or unreachable one; from another
      neighbour only the next hop changes, and only for a strictly smaller
      metric. */
  function Refresh(s: State, f: int, sender: Addr, m: u32): (r: State)
    requires InRange(f) && s.table[f].Some?
    ensures forall j :: 0 <= j < Capacity && j != f ==> r.table[j] == s.table[j]
    ensures var stored := s.table[f].value;
            if stored.gw == sender
            then r.table[f] == Some(stored.(metric := m)) && r.timers == s.timers[f := DefaultTimeout]
            else r.timers == s.timers
                 && r.table[f] == Some(if m < stored.metric then stored.(gw := sender) else stored)
  {
    var stored := s.table[f].value;
    if stored.gw == sender then
      State(s.table[f := Some(stored.(metric := m))], s.timers[f := DefaultTimeout])
    else if m < stored.metric then
      State(s.table[f := Some(stored.(gw := sender))], s.timers)
    else s
  }

  /** The RESPONSE rules for one entry (ripv2_server.c, lines 179-212): an
      entry with an unreachable metric is skipped; otherwise its metric goes
      up by one; an unknown subnet and mask is added if the new metric is
      still reachable, a known one is refreshed. */
  function ProcessEntry(s: State, sender: Addr, e: Route): (r: State)
    ensures IsInfinite(e.metric) ==> r == s
    ensures !IsInfinite(e.metric) && Find(s.table, e.subnet, e.mask) == -1 ==>
              r == if e.metric == 15 then s else Insert(s, Learnt(e, sender, e.metric + 1))
    ensures !IsInfinite(e.metric) && Find(s.table, e.subnet, e.mask) != -1 ==>
              r == Refresh(s, Find(s.table, e.subnet, e.mask), sender, e.metric + 1)
  {
    if IsInfinite(e.metric) then s
    else
      NetIncrementIsSuccessor(e.metric);
      var m := NetIncrement(e.metric);
      assert m == e.metric + 1;
      var f := Find(s.table, e.subnet, e.mask);
      if f < 0 then
        assert f == -1 && (IsInfinite(m) <==> e.metric == 15);
        if IsInfinite(m) then s else Insert(s, Learnt(e, sender, e.metric + 1))
      else
        assert InRange(f) && s.table[f].Some?;
        Refresh(s, f, sender, e.metric + 1)
  }

  /** The entries of a RESPONSE, processed in order. */
  function Learn(s: State, sender: Addr, es: seq<Route>): State
    decreases |es|
  {
    if |es| == 0 then s else Learn(ProcessEntry(s, sender, es[0]), sender, es[1..])
  }

  /** One datagram, once the sweep is done, with the entry count `count`
      computed from its length: discarded unless `udp_recv` returned a
      positive value, it came from port 520 and the count is not zero; a
      REQUEST is answered to the sender's port 520 and changes nothing; a
      RESPONSE updates the table and is not answered. */
  function Handle(s: State, d: Datagram, count: int): (o: Outcome)
    ensures d.bytes <= 0 || d.port != Port || count == 0 ==> o == Outcome(s, None)
    ensures o.reply.Some? <==> d.bytes > 0 && d.port == Port && count != 0 && Buffer(d.data)[0] == Request
    ensures o.reply.Some? ==> o.reply.value.dst == d.sender && o.reply.value.port == Port && o.state == s
    ensures o.state != s ==> Buffer(d.data)[0] == Response
    ensures d.bytes > 0 && d.port == Port && count != 0 && Buffer(d.data)[0] == Request ==>
              o.reply == Some(Reply(d.sender, Port, Encode(Response, Answer(s.table, Entries(Buffer(d.data), count)))))
    ensures d.bytes > 0 && d.port == Port && count != 0 && Buffer(d.data)[0] == Response ==>
              o == Outcome(Learn(s, d.sender, Entries(Buffer(d.data), count)), None)
    ensures Buffer(d.data)[0] != Request && Buffer(d.data)[0] != Response ==> o == Outcome(s, None)
  {
    if d.bytes <= 0 || d.port != Port || count == 0 then Outcome(s, None)
    else
      var buffer := Buffer(d.data);
      var es := Entries(buffer, count);
      if buffer[0] == Request then
        Outcome(s, Some(Reply(d.sender, Port, Encode(Response, Answer(s.table, es)))))
      else if buffer[0] == Response then
        Outcome(Learn(s, d.sender, es), None)
      else Outcome(s, None)
  }

  /** One pass of the server loop on a datagram: the sweep, then the
      datagram with the intended entry count. */
  function Step(s: State, d: Datagram): (o: Outcome)
    ensures o.reply.Some? ==> o.state == Sweep(s)
    ensures d.bytes <= 0 || d.port != Port || EntryCount(d.bytes) == 0 ==> o == Outcome(Sweep(s), None)
    ensures d.bytes > 0 && d.port == Port && EntryCount(d.bytes) != 0 && Buffer(d.data)[0] == Response ==>
              o == Outcome(Learn(Sweep(s), d.sender, Entries(Buffer(d.data), EntryCount(d.bytes))), None)
  {
    Handle(Sweep(s), d, EntryCount(d.bytes))
  }

  /** The same pass with the entry count as the C code computes it. */
  function StepAsWritten(s: State, d: Datagram): (o: Outcome)
    ensures o.reply.Some? ==> o.state == Sweep(s)
    ensures d.bytes <= 0 || d.port != Port || EntryCountAsWritten(d.bytes) == 0 ==> o == Outcome(Sweep(s), None)
    ensures d.bytes > 0 && d.port == Port && EntryCountAsWritten(d.bytes) != 0 && Buffer(d.data)[0] == Response ==>
              o == Outcome(Learn(Sweep(s), d.sender, Entries(Buffer(d.data), EntryCountAsWritten(d.bytes))), None)
  {
    Handle(Sweep(s), d, EntryCountAsWritten(d.bytes))
  }

  /** The loop: each pass lasts until a datagram for the server's port
      arrives (`elapsed` milliseconds, which the timers lose; `udp_recv`
      does not stop at the timeout it is given), then sweeps and handles
      that datagram. */
  function Iteration(s: State, elapsed: nat, d: Datagram): (o: Outcome)
    ensures o.reply.Some? ==> o.state.table == Swept(s.table, Elapse(s.timers, elapsed))
    ensures o.state.timers == Elapse(s.timers, elapsed) || Buffer(d.data)[0] == Response
  {
    Step(State(s.table, Elapse(s.timers, elapsed)), d)
  }

  /** When a datagram arrives just as the least timer of a non-empty table
      runs out, handling anything but a RESPONSE leaves exactly the swept
      table, which has fewer routes than before: that slot has expired. */
  lemma WaitedPassDropsARoute(s: State, d: Datagram)
    requires WaitTime(s) != -1
    requires Buffer(d.data)[0] != Response
    ensures Iteration(s, WaitTime(s), d).state.table == Swept(s.table, Elapse(s.timers, WaitTime(s)))
    ensures Occupied(Iteration(s, WaitTime(s), d).state.table) < Occupied(s.table)
  {
    WaitingTimeLeftExpiresARoute(s.table, s.timers);
  }

  /** A datagram with no payload, from a port other than 520, or too short
      for an entry changes nothing but the sweep, and is not answered. */
  lemma DiscardedDatagram(s: State, d: Datagram)
    requires d.bytes <= 0 || d.port != Port || d.bytes < HeaderSize + EntrySize
    ensures Step(s, d) == Outcome(Sweep(s), None)
  {
  }

  /** A datagram that is not discarded is answered exactly when it is a
      REQUEST. */
  lemma AnsweredIffRequest(s: State, d: Datagram)
    requires d.port == Port && d.bytes >= HeaderSize + EntrySize
    ensures Step(s, d).reply.Some? <==> Buffer(d.data)[0] == Request
  {
  }

  /** The request for the whole table is answered with every route of the
      swept table in slot order, family and metric in network byte order,
      4 + 20 octets per route, to the sender's port 520. */
  lemma RequestAllListsTable(s: State, d: Datagram)
    requires d.port == Port && d.bytes >= HeaderSize + EntrySize
    requires Buffer(d.data)[0] == Request && AsksForAll(Entries(Buffer(d.data), EntryCount(d.bytes)))
    ensures var t := Sweep(s).table;
            Step(s, d).reply == Some(Reply(d.sender, Port, Encode(Response, Occupants(t))))
            && |Step(s, d).reply.value.payload| == HeaderSize + EntrySize * Occupied(t)
  {
  }

  /** A neighbour that decodes the answer to a whole-table request reads
      back exactly the routes of the swept table, in slot order. */
  lemma RequestAllRoundTrip(s: State, d: Datagram)
    requires d.port == Port && d.bytes >= HeaderSize + EntrySize
    requires Buffer(d.data)[0] == Request && AsksForAll(Entries(Buffer(d.data), EntryCount(d.bytes)))
    ensures var t := Sweep(s).table;
            var p := Step(s, d).reply.value.payload;
            p[0] == Response && Entries(Buffer(p), Occupied(t)) == Occupants(t)
  {
    var t := Sweep(s).table;
    RequestAllListsTable(s, d);
    EntriesOfEncoded(Response, Occupants(t));
  }

  /** Any other REQUEST is answered entry for entry: each requested entry
      comes back with the table's metric for its subnet and mask, or 16
      when the table has no such route. */
  lemma SpecificRequestEcho(s: State, d: Datagram)
    requires d.port == Port && d.bytes >= HeaderSize + EntrySize
    requires Buffer(d.data)[0] == Request
    requires !AsksForAll(Entries(Buffer(d.data), EntryCount(d.bytes)))
    ensures var t := Sweep(s).table;
            var es := Entries(Buffer(d.data), EntryCount(d.bytes));
            var p := Step(s, d).reply.value.payload;
            |p| == HeaderSize + EntrySize * |es|
            && forall i :: 0 <= i < |es| ==>
                 DecodeEntry(EntrySlice(p, i)) == es[i].(metric := MetricFor(t, es[i]))
  {
    var t := Sweep(s).table;
    var es := Entries(Buffer(d.data), EntryCount(d.bytes));
    var rs := Answer(t, es);
    forall i | 0 <= i < |es|
      ensures DecodeEntry(EntrySlice(Encode(Response, rs), i)) == es[i].(metric := MetricFor(t, es[i]))
    {
      EncodeAt(Response, rs, i);
      DecodeEncodeEntry(rs[i]);
    }
  }

  /** No two occupied slots hold the same subnet and mask. */
  predicate UniqueKeys(t: Table)
  {
    forall i, j :: 0 <= i < j < Capacity && t[i].Some? && t[j].Some? ==>
      !(t[i].value.subnet == t[j].value.subnet && t[i].value.mask == t[j].value.mask)
  }

  /** Every stored route's metric is at most 16. */
  predicate MetricsBounded(t: Table)
  {
    forall i :: 0 <= i < Capacity && t[i].Some? ==> t[i].value.metric <= Infinity
  }

  /** Adding a route whose subnet and mask are not in the table keeps the
      keys unique; adding one with a metric of at most 16 keeps the metrics
      bounded. */
  lemma InsertInvariant(s: State, route: Route)
    requires Find(s.table, route.subnet, route.mask) == -1
    ensures UniqueKeys(s.table) ==> UniqueKeys(Insert(s, route).table)
    ensures MetricsBounded(s.table) && route.metric <= Infinity ==> MetricsBounded(Insert(s, route).table)
  {
    var a := Add(s.table, route);
    if a.index != -1 {
      assert Insert(s, route).table == a.table;
      if UniqueKeys(s.table) {
        AddedKeysUnique(s.table, route);
      }
    }
  }

  /** The slot a new key goes to clashes with no other slot. */
  lemma AddedKeysUnique(t: Table, route: Route)
    requires Find(t, route.subnet, route.mask) == -1 && UniqueKeys(t)
    ensures UniqueKeys(Add(t, route).table)
  {
    var a := Add(t, route);
    var u := a.table;
    forall i, j | 0 <= i < j < Capacity && u[i].Some? && u[j].Some?
      ensures !(u[i].value.subnet == u[j].value.subnet && u[i].value.mask == u[j].value.mask)
    {
      if i == a.index {
        assert !HasKey(t[j], route.subnet, route.mask);
      } else if j == a.index {
        assert !HasKey(t[i], route.subnet, route.mask);
      }
    }
  }

  /** Refreshing a route keeps its subnet and mask, so the keys stay
      unique; a metric of at most 16 keeps the metrics bounded. */
  lemma RefreshInvariant(s: State, f: int, sender: Addr, m: u32)
    requires InRange(f) && s.table[f].Some?
    ensures UniqueKeys(s.table) ==> UniqueKeys(Refresh(s, f, sender, m).table)
    ensures MetricsBounded(s.table) && m <= Infinity ==> MetricsBounded(Refresh(s, f, sender, m).table)
  {
    var r := Refresh(s, f, sender, m);
    assert r.table[f].value.subnet == s.table[f].value.subnet && r.table[f].value.mask == s.table[f].value.mask;
  }

  /** A RESPONSE entry never creates a second route for a subnet and mask,
      and never stores a metric above 16. */
  lemma ProcessEntryInvariant(s: State, sender: Addr, e: Route)
    ensures UniqueKeys(s.table) ==> UniqueKeys(ProcessEntry(s, sender, e).table)
    ensures MetricsBounded(s.table) ==> MetricsBounded(ProcessEntry(s, sender, e).table)
  {
    if !IsInfinite(e.metric) {
      if Find(s.table, e.subnet, e.mask) == -1 {
        NewEntryInvariant(s, sender, e);
      } else {
        KnownEntryInvariant(s, sender, e);
      }
    }
  }

  lemma NewEntryInvariant(s: State, sender: Addr, e: Route)
    requires !IsInfinite(e.metric) && Find(s.table, e.subnet, e.mask) == -1
    ensures UniqueKeys(s.table) ==> UniqueKeys(ProcessEntry(s, sender, e).table)
    ensures MetricsBounded(s.table) ==> MetricsBounded(ProcessEntry(s, sender, e).table)
  {
    if e.metric != 15 {
      var route := Learnt(e, sender, e.metric + 1);
      assert ProcessEntry(s, sender, e) == Insert(s, route);
      InsertInvariant(s, route);
    }
  }

  lemma KnownEntryInvariant(s: State, sender: Addr, e: Route)
    requires !IsInfinite(e.metric) && Find(s.table, e.subnet, e.mask) != -1
    ensures UniqueKeys(s.table) ==> UniqueKeys(ProcessEntry(s, sender, e).table)
    ensures MetricsBounded(s.table) ==> MetricsBounded(ProcessEntry(s, sender, e).table)
  {
    var f := Find(s.table, e.subnet, e.mask);
    assert ProcessEntry(s, sender, e) == Refresh(s, f, sender, e.metric + 1);
    RefreshInvariant(s, f, sender, e.metric + 1);
  }

  /** The invariants hold after a whole RESPONSE. */
  lemma {:induction false} LearnInvariant(s: State, sender: Addr, es: seq<Route>)
    requires UniqueKeys(s.table) && MetricsBounded(s.table)
    ensures UniqueKeys(Learn(s, sender, es).table) && MetricsBounded(Learn(s, sender, es).table)
    decreases |es|
  {
    if |es| > 0 {
      ProcessEntryInvariant(s, sender, es[0]);
      LearnInvariant(ProcessEntry(s, sender, es[0]), sender, es[1..]);
    }
  }

  /** A better path from a different neighbour only swaps the next hop: the
      stored metric and timer stay as they were, so the route keeps
      advertising its old distance until its old timer runs out. */
  lemma BetterPathKeepsMetric(s: State, sender: Addr, e: Route)
    requires e.metric <= 15
    requires Find(s.table, e.subnet, e.mask) != -1
    requires var stored := s.table[Find(s.table, e.subnet, e.mask)].value;
             stored.gw != sender && e.metric + 1 < stored.metric
    ensures var f := Find(s.table, e.subnet, e.mask);
            var r := ProcessEntry(s, sender, e);
            r.table[f].value.gw == sender && r.table[f].value.metric == s.table[f].value.metric
            && r.timers[f] == s.timers[f]
  {
  }

  /** The neighbour a route was learnt from announcing it unreachable (15,
      which becomes 16) makes the next sweep remove it. */
  lemma WithdrawnRouteIsSwept(s: State, sender: Addr, e: Route)
    requires e.metric == 15
    requires Find(s.table, e.subnet, e.mask) != -1
    requires s.table[Find(s.table, e.subnet, e.mask)].value.gw == sender
    ensures var f := Find(s.table, e.subnet, e.mask);
            var r := ProcessEntry(s, sender, e);
            r.table[f].Some? && Sweep(r).table[f].None?
  {
  }

  /** A new reachable route from a neighbour lands in the lowest free slot
      with the neighbour as next hop and a full timer. */
  lemma NewRouteLearnt(s: State, sender: Addr, e: Route)
    requires e.metric < 15
    requires Find(s.table, e.subnet, e.mask) == -1
    requires exists j :: 0 <= j < Capacity && s.table[j].None?
    ensures var r := ProcessEntry(s, sender, e);
            var i := Find(r.table, e.subnet, e.mask);
            i != -1 && s.table[i].None? && (forall j :: 0 <= j < i ==> s.table[j].Some?)
            && r.table[i] == Some(Route(0, e.tag, e.subnet, e.mask, sender, e.metric + 1))
            && r.timers[i] == DefaultTimeout
  {
    var route := Learnt(e, sender, e.metric + 1);
    assert route == Route(0, e.tag, e.subnet, e.mask, sender, e.metric + 1);
    assert ProcessEntry(s, sender, e) == Insert(s, route);
    var a := Add(s.table, route);
    assert a.index != -1;
    FindAfterAdd(s.table, route);
  }

  /** One to three octets from port 520 starting with the REQUEST command:
      with the count as the C code computes it the datagram is answered
      with an empty RESPONSE, where the intended count of zero discards it. */
  lemma ShortRequestAnswered(s: State, d: Datagram)
    requires 0 < d.bytes < HeaderSize && d.port == Port
    requires |d.data| > 0 && d.data[0] == Request
    ensures StepAsWritten(s, d).reply == Some(Reply(d.sender, Port, [Response, Version, 0, 0]))
    ensures Step(s, d).reply.None?
  {
    EntryCountShortDatagram(d.bytes);
    assert Buffer(d.data)[0] == d.data[0];
    var es := Entries(Buffer(d.data), EntryCountAsWritten(d.bytes));
    assert es == [];
    assert Answer(Sweep(s).table, es) == [];
    assert Encode(Response, []) == [Response, Version, 0, 0];
  }
}

=== FILE: rip_table.dfy ===
/** The RIPv2 route table of ripv2_route_table.c: 25 optional entries with
    a countdown timer per slot, and the scans over them (insert, remove,
    get, exact find, longest-prefix lookup, expiry sweep, time left).
    Timers are the milliseconds each slot has left (`timerms_left`). */
module RipTable {
  import opened Wire
  import Prefix

  /** `RIP_ROUTE_TABLE_SIZE`. */
  const Capacity := 25
  /** `RIP_ROUTE_DEFAULT_TIME`: milliseconds a route lives without news. */
  const DefaultTimeout := 180000
  /** `DEFAULT_FAMILY_DIRECTION`: the address family of routes read from a file. */
  const DefaultFamily := 2
  const Unused := 0
  /** Smallest metric RIP treats as unreachable. */
  const Infinity := 16

  /** A RIP route entry (`entrada_rip_t`), numeric fields as host values. */
  datatype Route = Route(family: u16, tag: u16, subnet: Addr, mask: Addr, gw: Addr, metric: u32)

  type Table = t: seq<Option<Route>> | |t| == Capacity witness seq(25, i => None)

  /** Milliseconds left on each slot's timer. */
  type Timers = s: seq<nat> | |s| == Capacity witness seq(25, i => 0)

  const EmptyTable: Table := seq(Capacity, i => None)

  /** `ripv2_is_infinite`: metrics above 15 are unreachable (the `< 0` test
      of the C code can never hold on an unsigned value). */
  predicate IsInfinite(metric: u32)
  {
    metric >= Infinity
  }

  /** `ripv2_route_create`: a route with the default family and no tag. */
  function CreateRoute(subnet: Addr, mask: Addr, gw: Addr, metric: u32): Route
  {
    Route(DefaultFamily, Unused, subnet, mask, gw, metric)
  }

  /** Number of occupied slots. */
  function Occupied(s: seq<Option<Route>>): (n: nat)
    ensures n <= |s|
  {
    if |s| == 0 then 0 else (if s[0].Some? then 1 else 0) + Occupied(s[1..])
  }

  lemma {:induction false} OccupiedAppend(a: seq<Option<Route>>, b: seq<Option<Route>>)
    ensures Occupied(a + b) == Occupied(a) + Occupied(b)
    decreases |a|
  {
    if |a| == 0 {
      assert a + b == b;
    } else {
      assert (a + b)[1..] == a[1..] + b;
      OccupiedAppend(a[1..], b);
    }
  }

  /** Emptying an occupied slot lowers the count by one. */
  lemma OccupiedClear(s: seq<Option<Route>>, i: nat)
    requires i < |s| && s[i].Some?
    ensures Occupied(s[i := None]) + 1 == Occupied(s)
  {
    assert s == s[..i] + [s[i]] + s[i + 1..];
    assert s[i := None] == s[..i] + [None] + s[i + 1..];
    OccupiedAppend(s[..i] + [s[i]], s[i + 1..]);
    OccupiedAppend(s[..i], [s[i]]);
    OccupiedAppend(s[..i] + [None], s[i + 1..]);
    OccupiedAppend(s[..i], [None]);
  }

  /** The scan of `ripv2_route_table_add` from slot `k`. */
  function FirstFreeFrom(t: Table, k: nat): (i: int)
    requires k <= Capacity
    ensures i == -1 <==> forall j :: k <= j < Capacity ==> t[j].Some?
    ensures i != -1 ==> k <= i < Capacity && t[i].None? && forall j :: k <= j < i ==> t[j].Some?
    decreases Capacity - k
  {
    if k == Capacity then -1
    else if t[k].None? then k
    else FirstFreeFrom(t, k + 1)
  }

  datatype Added = Added(table: Table, index: int)

  /** `ripv2_route_table_add`: the route goes into the lowest empty slot,
      whose index is returned; a full table is left as it is and -1 is
      returned. No other slot changes. */
  function Add(t: Table, r: Route): (a: Added)
    ensures a.index == -1 <==> forall j :: 0 <= j < Capacity ==> t[j].Some?
    ensures a.index == -1 ==> a.table == t
    ensures a.index != -1 ==>
              0 <= a.index < Capacity && t[a.index].None? && (forall j :: 0 <= j < a.index ==> t[j].Some?)
              && a.table[a.index] == Some(r)
              && (forall j :: 0 <= j < Capacity && j != a.index ==> a.table[j] == t[j])
  {
    var i := FirstFreeFrom(t, 0);
    if i == -1 then Added(t, -1) else Added(t[i := Some(r)], i)
  }

  datatype Removed = Removed(table: Table, route: Option<Route>)

  predicate InRange(index: int)
  {
    0 <= index < Capacity
  }

  /** `ripv2_route_table_remove`: an index in range yields the slot's
      content and empties that slot only; any other index yields nothing
      and changes nothing. */
  function Remove(t: Table, index: int): (r: Removed)
    ensures InRange(index) ==>
              r.route == t[index] && r.table[index].None?
              && (forall j :: 0 <= j < Capacity && j != index ==> r.table[j] == t[j])
    ensures !InRange(index) ==> r == Removed(t, None)
  {
    if InRange(index) then Removed(t[index := None], t[index]) else Removed(t, None)
  }

  /** `ripv2_route_table_get`. */
  function Get(t: Table, index: int): (r: Option<Route>)
    ensures r.Some? ==> InRange(index) && t[index] == r
    ensures InRange(index) ==> r == t[index]
    ensures !InRange(index) ==> r.None?
  {
    if InRange(index) then t[index] else None
  }

  /** Adding a route and then removing the slot it went to restores the
      table and hands the route back; reading the slot returns it. */
  lemma AddThenRemove(t: Table, r: Route)
    requires Add(t, r).index != -1
    ensures Get(Add(t, r).table, Add(t, r).index) == Some(r)
    ensures Remove(Add(t, r).table, Add(t, r).index) == Removed(t, Some(r))
  {
    var a := Add(t, r);
    assert a.table[a.index := None] == t;
  }

  /** The slot holds a route for exactly this subnet and mask. */
  predicate HasKey(o: Option<Route>, subnet: Addr, mask: Addr)
  {
    o.Some? && o.value.subnet == subnet && o.value.mask == mask
  }

  function FindFrom(t: Table, subnet: Addr, mask: Addr, k: nat): (i: int)
    requires k <= Capacity
    ensures i == -1 <==> forall j :: k <= j < Capacity ==> !HasKey(t[j], subnet, mask)
    ensures i != -1 ==> k <= i < Capacity && HasKey(t[i], subnet, mask)
                        && forall j :: k <= j < i ==> !HasKey(t[j], subnet, mask)
    decreases Capacity - k
  {
    if k == Capacity then -1
    else if HasKey(t[k], subnet, mask) then k
    else FindFrom(t, subnet, mask, k + 1)
  }

  /** `ripv2_route_table_find`: the lowest occupied slot whose subnet and
      mask both equal the probe's (gateway and metric are not compared), or
      -1 when there is none. */
  function Find(t: Table, subnet: Addr, mask: Addr): (i: int)
    ensures i == -1 <==> forall j :: 0 <= j < Capacity ==> !HasKey(t[j], subnet, mask)
    ensures i != -1 ==> InRange(i) && HasKey(t[i], subnet, mask)
                        && forall j :: 0 <= j < i ==> !HasKey(t[j], subnet, mask)
  {
    FindFrom(t, subnet, mask, 0)
  }

  /** A route added for a key the table did not hold is then found in the
      slot it went to. */
  lemma FindAfterAdd(t: Table, r: Route)
    requires Find(t, r.subnet, r.mask) == -1 && Add(t, r).index != -1
    ensures Find(Add(t, r).table, r.subnet, r.mask) == Add(t, r).index
  {
  }

  /** Prefix length with which the route in slot `j` covers `addr`: -1 for
      an empty slot or a route that does not cover it. */
  function PrefixAt(t: Table, j: nat, addr: Addr): (n: int)
    requires j < Capacity
    ensures -1 <= n <= 32
  {
    if t[j].None? then -1 else Prefix.Match(t[j].value.subnet, t[j].value.mask, addr)
  }

  /** Loop invariant of `ripv2_route_table_lookup` after slots `0..i-1`,
      over the prefix lengths `lens` of the slots: either no slot so far
      covers the address, or `best` is the earliest of the slots so far with
      the longest covering prefix. */
  predicate BestSoFar(lens: seq<int>, i: nat, best: int, bestLen: int)
    requires i <= |lens|
  {
    (best == -1 && bestLen == -1 && forall j :: 0 <= j < i ==> lens[j] == -1)
    || (0 <= best < i && bestLen == lens[best] >= 0
        && (forall j :: 0 <= j < i ==> lens[j] <= bestLen)
        && (forall j :: 0 <= j < best ==> lens[j] < bestLen))
  }

  /** The loop of `ripv2_route_table_lookup` from slot `i`: a slot replaces
      the best so far only when its prefix is strictly longer. */
  function LookupFrom(lens: seq<int>, i: nat, best: int, bestLen: int): (r: int)
    requires i <= |lens| && BestSoFar(lens, i, best, bestLen)
    requires forall j :: 0 <= j < |lens| ==> lens[j] >= -1
    ensures -1 <= r < |lens|
    ensures BestSoFar(lens, |lens|, r, if r == -1 then -1 else lens[r])
    decreases |lens| - i
  {
    if i == |lens| then best
    else if lens[i] > bestLen then LookupFrom(lens, i + 1, i, lens[i])
    else LookupFrom(lens, i + 1, best, bestLen)
  }

  /** `ripv2_route_table_lookup`: a route covering `addr` with the longest
      prefix, the earliest slot among equals; None when no route covers it. */
  function Lookup(t: Table, addr: Addr): (r: Option<Route>)
    ensures r.None? <==> forall j :: 0 <= j < Capacity ==> PrefixAt(t, j, addr) == -1
    ensures r.Some? ==>
              exists i :: 0 <= i < Capacity && t[i] == r && PrefixAt(t, i, addr) >= 0
                && (forall j :: 0 <= j < Capacity ==> PrefixAt(t, j, addr) <= PrefixAt(t, i, addr))
                && (forall j :: 0 <= j < i ==> PrefixAt(t, j, addr) < PrefixAt(t, i, addr))
  {
    var lens := Lengths(t, addr);
    var i := LookupFrom(lens, 0, -1, -1);
    if i == -1 then None
    else
      assert PrefixAt(t, i, addr) == lens[i];
      t[i]
  }

  /** The prefix length of every slot for `addr`. */
  function Lengths(t: Table, addr: Addr): (lens: seq<int>)
    ensures |lens| == Capacity
    ensures forall j :: 0 <= j < Capacity ==> lens[j] == PrefixAt(t, j, addr)
  {
    seq(Capacity, j requires 0 <= j < Capacity => PrefixAt(t, j, addr))
  }

  /** A slot whose prefix for `addr` is strictly longer than every other
      slot's is the one the lookup returns. */
  lemma LookupLongestWins(t: Table, addr: Addr, k: nat)
    requires k < Capacity && PrefixAt(t, k, addr) >= 0
    requires forall j :: 0 <= j < Capacity && j != k ==> PrefixAt(t, j, addr) < PrefixAt(t, k, addr)
    ensures Lookup(t, addr) == t[k]
  {
    var r := Lookup(t, addr);
    assert r.Some?;
    var i :| 0 <= i < Capacity && t[i] == r && PrefixAt(t, i, addr) >= 0
             && (forall j :: 0 <= j < Capacity ==> PrefixAt(t, j, addr) <= PrefixAt(t, i, addr));
    assert i == k;
  }

  /** 10.1.2.3 lies in 10.0.0.0/8 and in 10.1.0.0/16. */
  lemma ExampleMatches()
    ensures Prefix.Match([10, 0, 0, 0], [255, 0, 0, 0], [10, 1, 2, 3]) == 8
    ensures Prefix.Match([10, 1, 0, 0], [255, 255, 0, 0], [10, 1, 2, 3]) == 16
  {
    Prefix.BitsSetMaskOctets();
    Prefix.BitsSetZero(8);
    ExampleEightBits();
    ExampleSixteenBits();
  }

  lemma ExampleEightBits()
    requires Prefix.BitsSet(255, 8) == 8 && Prefix.BitsSet(0, 8) == 0
    ensures Prefix.Match([10, 0, 0, 0], [255, 0, 0, 0], [10, 1, 2, 3]) == 8
  {
    assert Prefix.And(10, 255) == 10;
    Prefix.AndZero(1);
    Prefix.AndZero(2);
    Prefix.AndZero(3);
    assert Prefix.Covers([10, 0, 0, 0], [255, 0, 0, 0], [10, 1, 2, 3]);
    Prefix.MaskLengthOctets([255, 0, 0, 0]);
  }

  lemma ExampleSixteenBits()
    requires Prefix.BitsSet(255, 8) == 8 && Prefix.BitsSet(0, 8) == 0
    ensures Prefix.Match([10, 1, 0, 0], [255, 255, 0, 0], [10, 1, 2, 3]) == 16
  {
    assert Prefix.And(10, 255) == 10 && Prefix.And(1, 255) == 1;
    Prefix.AndZero(2);
    Prefix.AndZero(3);
    assert Prefix.Covers([10, 1, 0, 0], [255, 255, 0, 0], [10, 1, 2, 3]);
    Prefix.MaskLengthOctets([255, 255, 0, 0]);
  }

  /** With two routes in slots 0 and 1 and the rest empty, the second wins
      when its prefix is strictly longer. */
  lemma SecondSlotWins(wide: Route, narrow: Route, a: Addr)
    requires Prefix.Match(narrow.subnet, narrow.mask, a) >= 0
    requires Prefix.Match(wide.subnet, wide.mask, a) < Prefix.Match(narrow.subnet, narrow.mask, a)
    ensures Lookup(EmptyTable[0 := Some(wide)][1 := Some(narrow)], a) == Some(narrow)
  {
    var t: Table := EmptyTable[0 := Some(wide)][1 := Some(narrow)];
    assert forall j :: 2 <= j < Capacity ==> t[j].None?;
    LookupLongestWins(t, a, 1);
  }

  /** 10.1.2.3 against 10.0.0.0/8 in slot 0 and 10.1.0.0/16 in slot 1: the
      longer prefix wins although it comes later. */
  lemma LookupPrefersLongerPrefix(gw: Addr)
    ensures var wide := Route(DefaultFamily, Unused, [10, 0, 0, 0], [255, 0, 0, 0], gw, 1);
            var narrow := Route(DefaultFamily, Unused, [10, 1, 0, 0], [255, 255, 0, 0], gw, 1);
            var t: Table := EmptyTable[0 := Some(wide)][1 := Some(narrow)];
            Lookup(t, [10, 1, 2, 3]) == Some(narrow)
  {
    ExampleMatches();
    SecondSlotWins(Route(DefaultFamily, Unused, [10, 0, 0, 0], [255, 0, 0, 0], gw, 1),
                   Route(DefaultFamily, Unused, [10, 1, 0, 0], [255, 255, 0, 0], gw, 1), [10, 1, 2, 3]);
  }

  /** A slot `ripv2_route_table_remove_expired` empties: occupied, and its
      timer has run out or its metric is unreachable. */
  predicate Expired(t: Table, timers: Timers, i: nat)
    requires i < Capacity
  {
    t[i].Some? && (timers[i] == 0 || IsInfinite(t[i].value.metric))
  }

  /** The table after the expiry sweep: every expired slot emptied, every
      other slot as it was. */
  function Swept(t: Table, timers: Timers): (s: Table)
    ensures forall i :: 0 <= i < Capacity ==> s[i].Some? ==> !Expired(s, timers, i)
    ensures forall i :: 0 <= i < Capacity ==> !Expired(t, timers, i) ==> s[i] == t[i]
    ensures forall i :: 0 <= i < Capacity ==> Expired(t, timers, i) ==> s[i].None?
  {
    seq(Capacity, i requires 0 <= i < Capacity => if Expired(t, timers, i) then None else t[i])
  }

  /** Sweeping twice removes nothing more. */
  lemma SweptIdempotent(t: Table, timers: Timers)
    ensures Swept(Swept(t, timers), timers) == Swept(t, timers)
  {
  }

  /** `ripv2_route_table_remove_expired`: the slot-by-slot sweep; the count
      returned is the number of routes it took out. */
  method RemoveExpired(t: Table, timers: Timers) returns (s: Table, removed: nat)
    ensures s == Swept(t, timers)
    ensures removed + Occupied(s) == Occupied(t)
  {
    s := t;
    removed := 0;
    var i := 0;
    while i < Capacity
      invariant 0 <= i <= Capacity
      invariant forall j :: 0 <= j < i ==> s[j] == Swept(t, timers)[j]
      invariant forall j :: i <= j < Capacity ==> s[j] == t[j]
      invariant removed + Occupied(s) == Occupied(t)
    {
      if s[i].Some? && (timers[i] == 0 || IsInfinite(s[i].value.metric)) {
        OccupiedClear(s, i);
        s := s[i := None];
        removed := removed + 1;
      }
      i := i + 1;
    }
  }

  /** The scan of `ripv2_timeleft` from slot `i` with the minimum `cur` so
      far (-1 for none yet). */
  function TimeLeftFrom(t: Table, timers: Timers, i: nat, cur: int): (r: int)
    requires i <= Capacity
    requires cur == -1 || cur >= 0
    ensures r == -1 <==> cur == -1 && forall j :: i <= j < Capacity ==> t[j].None?
    ensures r != -1 ==> (r == cur || exists j :: i <= j < Capacity && t[j].Some? && timers[j] == r)
    ensures r != -1 ==> (cur == -1 || r <= cur) && forall j :: i <= j < Capacity && t[j].Some? ==> r <= timers[j]
    decreases Capacity - i
  {
    if i == Capacity then cur
    else if t[i].Some? && (cur == -1 || timers[i] < cur) then TimeLeftFrom(t, timers, i + 1, timers[i])
    else TimeLeftFrom(t, timers, i + 1, cur)
  }

  /** `ripv2_timeleft`: -1 for an empty table, otherwise the least time left
      over the occupied slots only. */
  function TimeLeft(t: Table, timers: Timers): (r: int)
    ensures r == -1 <==> forall j :: 0 <= j < Capacity ==> t[j].None?
    ensures r != -1 ==> r >= 0 && exists j :: 0 <= j < Capacity && t[j].Some? && timers[j] == r
    ensures r != -1 ==> forall j :: 0 <= j < Capacity && t[j].Some? ==> r <= timers[j]
  {
    TimeLeftFrom(t, timers, 0, -1)
  }

  /** `ripv2_inicialize_timers`: for a count of routes read in 1..25, the
      first that many timers start at 180000 ms; otherwise nothing changes. */
  function InitTimers(lastIndex: int, timers: Timers): Timers
  {
    if 0 < lastIndex <= Capacity
    then seq(Capacity, i requires 0 <= i < Capacity => if i < lastIndex then DefaultTimeout else timers[i])
    else timers
  }

  /** Timers after `dt` milliseconds: each counts down and stops at 0. */
  function Elapse(timers: Timers, dt: nat): Timers
  {
    seq(Capacity, i requires 0 <= i < Capacity => if timers[i] <= dt then 0 else timers[i] - dt)
  }

  /** Waiting as long as `ripv2_timeleft` says and then sweeping removes at
      least one route from a non-empty table. */
  lemma WaitingTimeLeftExpiresARoute(t: Table, timers: Timers)
    requires TimeLeft(t, timers) != -1
    ensures Occupied(Swept(t, Elapse(timers, TimeLeft(t, timers)))) < Occupied(t)
  {
    var later := Elapse(timers, TimeLeft(t, timers));
    var j :| 0 <= j < Capacity && t[j].Some? && timers[j] == TimeLeft(t, timers);
    assert Expired(t, later, j);
    SweptCount(t, later, j);
  }

  /** A sweep that empties some slot lowers the count of routes. */
  lemma SweptCount(t: Table, timers: Timers, k: nat)
    requires k < Capacity && Expired(t, timers, k)
    ensures Occupied(Swept(t, timers)) < Occupied(t)
  {
    var s := Swept(t, timers);
    var u := t[k := None];
    OccupiedClear(t, k);
    OccupiedBelow(s, u);
  }

  /** Emptying slots never raises the count. */
  lemma {:induction false} OccupiedBelow(s: seq<Option<Route>>, u: seq<Option<Route>>)
    requires |s| == |u|
    requires forall i :: 0 <= i < |s| ==> s[i].Some? ==> u[i].Some?
    ensures Occupied(s) <= Occupied(u)
    decreases |s|
  {
    if |s| > 0 {
      OccupiedBelow(s[1..], u[1..]);
    }
  }

  /** Before the least timer runs out, the sweep only takes out routes with
      an unreachable metric. */
  lemma WaitingLessKeepsReachable(t: Table, timers: Timers, dt: nat)
    requires TimeLeft(t, timers) != -1 && dt < TimeLeft(t, timers)
    ensures forall i :: 0 <= i < Capacity && t[i].Some? && !IsInfinite(t[i].value.metric)
              ==> Swept(t, Elapse(timers, dt))[i] == t[i]
  {
  }
}

=== FILE: rip_table_text.dfy ===
/** The text form of the RIP route table (ripv2_route_table.c): one route
    per line as subnet, mask, gateway and metric separated by white space,
    blank and `#` lines ignored. The file is modelled as the sequence of
    lines `fgets` returns, each with its line terminator. */
module RipTableText {
  import opened Wire
  import opened Ipv4Text
  import opened RipTable

  /** Number of leading non-white-space characters. */
  function WordRun(s: string): (k: nat)
    ensures k <= |s|
    ensures forall i :: 0 <= i < k ==> !IsSpace(s[i])
    ensures k < |s| ==> IsSpace(s[k])
  {
    if |s| == 0 || IsSpace(s[0]) then 0 else 1 + WordRun(s[1..])
  }

  predicate IsWord(w: string)
  {
    |w| > 0 && forall i :: 0 <= i < |w| ==> !IsSpace(w[i])
  }

  predicate IsGap(g: string)
  {
    forall i :: 0 <= i < |g| ==> IsSpace(g[i])
  }

  /** The successive `%s` conversions of `sscanf`: maximal runs of
      non-white-space characters. */
  function Tokens(s: string): (ts: seq<string>)
    ensures forall i :: 0 <= i < |ts| ==> IsWord(ts[i])
    decreases |s|
  {
    var t := s[SpaceRun(s)..];
    if |t| == 0 then []
    else
      var k := WordRun(t);
      [t[..k]] + Tokens(t[k..])
  }

  /** `ripv2_route_read`: the line must hold four fields, the first three
      dotted-quad addresses; the fourth is read with `atoi`, and 0 (which
      includes text that is not a number) is rejected. The route gets the
      default family, no tag and the metric converted to `uint32_t`. */
  function RouteRead(line: string): (r: Option<Route>)
    ensures r.None? <==>
              var ts := Tokens(line);
              |ts| < 4 || ParseAddr(ts[0]).None? || ParseAddr(ts[1]).None? || ParseAddr(ts[2]).None?
              || Atoi(ts[3]) == 0
    ensures r.Some? ==>
              var ts := Tokens(line);
              r.value.family == DefaultFamily && r.value.tag == Unused
              && Some(r.value.subnet) == ParseAddr(ts[0]) && Some(r.value.mask) == ParseAddr(ts[1])
              && Some(r.value.gw) == ParseAddr(ts[2])
              && r.value.metric == ToU32(Atoi(ts[3]))
  {
    var ts := Tokens(line);
    if |ts| < 4 then None
    else
      var subnet, mask, gw := ParseAddr(ts[0]), ParseAddr(ts[1]), ParseAddr(ts[2]);
      if subnet.None? || mask.None? || gw.None? then None
      else
        var metric := Atoi(ts[3]);
        if metric == 0 then None
        else Some(CreateRoute(subnet.value, mask.value, gw.value, ToU32(metric)))
  }

  /** Lines `ripv2_route_table_read` passes over: empty lines and comments. */
  predicate IsSkipped(line: string)
  {
    |line| > 0 && (line[0] == '\n' || line[0] == '#')
  }

  /** What each line that is not skipped parses to, in file order. */
  function Content(lines: seq<string>): (c: seq<Option<Route>>)
    ensures |c| <= |lines|
  {
    if |lines| == 0 then []
    else if IsSkipped(lines[0]) then Content(lines[1..])
    else [RouteRead(lines[0])] + Content(lines[1..])
  }

  datatype ReadResult = ReadResult(table: Table, count: int)

  /** Whether the occupied slots are exactly the lowest ones. */
  predicate Packed(t: Table)
  {
    forall i :: 0 <= i < Capacity ==> (t[i].Some? <==> i < Occupied(t))
  }

  /** `ripv2_route_table_read` from the current line on: each route goes to
      the lowest free slot and is counted; a line that does not parse, or a
      route that finds the table full, ends the reading with -1, keeping the
      routes already stored. */
  function ReadLines(t: Table, lines: seq<string>): (r: ReadResult)
    ensures r.count >= -1
    ensures r.count != -1 ==> Occupied(r.table) == Occupied(t) + r.count
    ensures forall i :: 0 <= i < Capacity && t[i].Some? ==> r.table[i] == t[i]
    ensures Packed(t) ==> Packed(r.table)
    decreases |lines|
  {
    if |lines| == 0 then ReadResult(t, 0)
    else if IsSkipped(lines[0]) then ReadLines(t, lines[1..])
    else
      match RouteRead(lines[0])
      case None => ReadResult(t, -1)
      case Some(route) =>
        var a := Add(t, route);
        if a.index == -1 then ReadResult(t, -1)
        else
          var rest := ReadLines(a.table, lines[1..]);
          AddThenRead(t, route, rest);
          ReadResult(rest.table, if rest.count == -1 then -1 else rest.count + 1)
  }

  /** The contract of `ReadLines` carried over one stored route. */
  lemma AddThenRead(t: Table, route: Route, rest: ReadResult)
    requires Add(t, route).index != -1
    requires var u := Add(t, route).table;
             rest.count >= -1
             && (rest.count != -1 ==> Occupied(rest.table) == Occupied(u) + rest.count)
             && (forall i :: 0 <= i < Capacity && u[i].Some? ==> rest.table[i] == u[i])
             && (Packed(u) ==> Packed(rest.table))
    ensures rest.count != -1 ==> Occupied(rest.table) == Occupied(t) + rest.count + 1
    ensures forall i :: 0 <= i < Capacity && t[i].Some? ==> rest.table[i] == t[i]
    ensures Packed(t) ==> Packed(rest.table)
  {
    var a := Add(t, route);
    AddOccupied(t, route);
    AddPacked(t, route);
    assert forall i :: 0 <= i < Capacity && t[i].Some? ==> a.table[i] == t[i];
  }

  /** `ripv2_route_table_read` on a table that exists. */
  function ReadTable(t: Table, lines: seq<string>): (r: ReadResult)
    ensures r.count >= -1
    ensures r.count != -1 ==> Occupied(r.table) == Occupied(t) + r.count
  {
    ReadLines(t, lines)
  }

  lemma AddOccupied(t: Table, r: Route)
    requires Add(t, r).index != -1
    ensures Occupied(Add(t, r).table) == Occupied(t) + 1
  {
    var a := Add(t, r);
    assert a.table[a.index := None] == t;
    OccupiedClear(a.table, a.index);
  }

  lemma {:induction false} OccupiedAll(s: seq<Option<Route>>)
    ensures Occupied(s) == |s| <==> forall i :: 0 <= i < |s| ==> s[i].Some?
    decreases |s|
  {
    if |s| > 0 {
      OccupiedAll(s[1..]);
      if forall i :: 0 <= i < |s| ==> s[i].Some? {
        assert forall i :: 0 <= i < |s| - 1 ==> s[1..][i] == s[i + 1];
      }
    }
  }

  lemma {:induction false} AddPacked(t: Table, r: Route)
    requires Add(t, r).index != -1
    ensures Packed(t) ==> Add(t, r).index == Occupied(t) && Packed(Add(t, r).table)
  {
    var a := Add(t, r);
    AddOccupied(t, r);
    if Packed(t) {
      var n := Occupied(t);
      assert n <= a.index;
      assert t[n].None?;
      assert a.index == n;
    }
  }

  /** Some line that is not skipped fails to parse. */
  predicate HasFailure(c: seq<Option<Route>>)
  {
    exists i :: 0 <= i < |c| && c[i].None?
  }

  lemma HasFailureCons(c: seq<Option<Route>>)
    requires |c| > 0
    ensures HasFailure(c) <==> c[0].None? || HasFailure(c[1..])
  {
    if HasFailure(c[1..]) {
      var i :| 0 <= i < |c| - 1 && c[1..][i].None?;
      assert c[i + 1].None?;
    }
    if HasFailure(c) && c[0].Some? {
      var i :| 0 <= i < |c| && c[i].None?;
      assert c[1..][i - 1].None?;
    }
  }

  lemma ContentCons(lines: seq<string>)
    requires |lines| > 0 && !IsSkipped(lines[0])
    ensures Content(lines) == [RouteRead(lines[0])] + Content(lines[1..])
  {
  }

  /** Reading fails exactly when some line that is not skipped does not
      parse, or there are more routes than free slots. */
  lemma {:induction false} ReadFailsIff(t: Table, lines: seq<string>)
    ensures ReadLines(t, lines).count == -1 <==> HasFailure(Content(lines)) || Capacity - Occupied(t) < |Content(lines)|
    ensures ReadLines(t, lines).count != -1 ==> ReadLines(t, lines).count == |Content(lines)|
    decreases |lines|
  {
    if |lines| > 0 {
      if IsSkipped(lines[0]) {
        ReadFailsIff(t, lines[1..]);
      } else {
        var c := Content(lines);
        ContentCons(lines);
        HasFailureCons(c);
        assert c[1..] == Content(lines[1..]);
        match RouteRead(lines[0])
        case None =>
        case Some(route) =>
          var a := Add(t, route);
          if a.index == -1 {
            OccupiedAll(t);
          } else {
            AddOccupied(t, route);
            ReadFailsIff(a.table, lines[1..]);
          }
      }
    }
  }

  /** The table whose first slots hold `routes`, in order, and the others
      nothing. */
  function Fill(routes: seq<Route>): (t: Table)
    requires |routes| <= Capacity
    ensures forall i :: 0 <= i < Capacity ==> t[i] == if i < |routes| then Some(routes[i]) else None
  {
    seq(Capacity, i requires 0 <= i < Capacity => if i < |routes| then Some(routes[i]) else None)
  }

  /** The routes of a content with no failed line. */
  function Routes(c: seq<Option<Route>>): (rs: seq<Route>)
    requires forall i :: 0 <= i < |c| ==> c[i].Some?
    ensures |rs| == |c| && forall i :: 0 <= i < |c| ==> c[i] == Some(rs[i])
  {
    seq(|c|, i requires 0 <= i < |c| => c[i].value)
  }

  lemma RoutesCons(c: seq<Option<Route>>)
    requires |c| > 0 && forall i :: 0 <= i < |c| ==> c[i].Some?
    ensures Routes(c) == [c[0].value] + Routes(c[1..])
  {
  }

  lemma AppendAssoc<T>(a: seq<T>, b: seq<T>, c: seq<T>)
    ensures a + b + c == a + (b + c)
  {
  }

  lemma AddToFill(routes: seq<Route>, r: Route)
    requires |routes| < Capacity
    ensures Add(Fill(routes), r) == Added(Fill(routes + [r]), |routes|)
  {
    var t, u := Fill(routes), Fill(routes + [r]);
    var a := Add(t, r);
    assert t[|routes|].None? && forall j :: 0 <= j < |routes| ==> t[j].Some?;
    assert a.index == |routes|;
    forall j | 0 <= j < Capacity
      ensures a.table[j] == u[j]
    {
      if j < |routes| {
        assert (routes + [r])[j] == routes[j];
      }
    }
    assert a.table == u;
  }

  /** Lines that all parse, no more than there are free slots after
      `stored`, are stored in file order after the routes already there. */
  lemma {:induction false} ReadInOrder(stored: seq<Route>, lines: seq<string>)
    requires forall i :: 0 <= i < |Content(lines)| ==> Content(lines)[i].Some?
    requires |stored| + |Content(lines)| <= Capacity
    ensures ReadLines(Fill(stored), lines)
         == ReadResult(Fill(stored + Routes(Content(lines))), |Content(lines)|)
    decreases |lines|
  {
    var c := Content(lines);
    if |lines| == 0 {
      assert stored + Routes(c) == stored;
    } else if IsSkipped(lines[0]) {
      ReadInOrder(stored, lines[1..]);
    } else {
      var rest := Content(lines[1..]);
      ContentCons(lines);
      assert c[0] == RouteRead(lines[0]);
      var route := RouteRead(lines[0]).value;
      assert c == [Some(route)] + rest;
      AllSomeTail(Some(route), rest);
      ReadInOrder(stored + [route], lines[1..]);
      ReadStored(stored, route, lines);
      assert Routes(c) == [route] + Routes(rest) by {
        RoutesCons(c);
      }
      AppendAssoc(stored, [route], Routes(rest));
    }
  }

  lemma AllSomeTail<T>(x: Option<T>, rest: seq<Option<T>>)
    requires forall i :: 0 <= i < |[x] + rest| ==> ([x] + rest)[i].Some?
    ensures forall i :: 0 <= i < |rest| ==> rest[i].Some?
  {
    assert forall i :: 0 <= i < |rest| ==> rest[i] == ([x] + rest)[i + 1];
  }

  /** A line that parses, read into a table with a free slot after
      `stored`, lands in that slot and reading goes on with the rest. */
  lemma ReadStored(stored: seq<Route>, route: Route, lines: seq<string>)
    requires |lines| > 0 && !IsSkipped(lines[0]) && RouteRead(lines[0]) == Some(route)
    requires |stored| < Capacity
    ensures var rest := ReadLines(Fill(stored + [route]), lines[1..]);
            ReadLines(Fill(stored), lines)
              == ReadResult(rest.table, if rest.count == -1 then -1 else rest.count + 1)
  {
    AddToFill(stored, route);
  }

  /** After reading a file into the empty table, `ripv2_inicialize_timers`
      with the count read gives every stored route a fresh timer. */
  lemma ReadThenInitTimers(lines: seq<string>, timers: Timers)
    requires ReadTable(EmptyTable, lines).count != -1
    ensures var r := ReadTable(EmptyTable, lines);
            forall i :: 0 <= i < Capacity && r.table[i].Some? ==> InitTimers(r.count, timers)[i] == DefaultTimeout
  {
    assert Occupied(EmptyTable) == 0 by {
      OccupiedBelow(EmptyTable, EmptyTable);
      assert forall k :: 0 <= k <= Capacity ==> Occupied(EmptyTable[k..]) == 0 by {
        forall k | 0 <= k <= Capacity
          ensures Occupied(EmptyTable[k..]) == 0
        {
          EmptyTail(k);
        }
      }
      assert EmptyTable[0..] == EmptyTable;
    }
  }

  lemma {:induction false} EmptyTail(k: nat)
    requires k <= Capacity
    ensures Occupied(EmptyTable[k..]) == 0
    decreases Capacity - k
  {
    if k < Capacity {
      EmptyTail(k + 1);
      assert EmptyTable[k..][1..] == EmptyTable[k + 1..];
    }
  }

  /** `%-15s`: the text, padded on the right with blanks to 15 characters. */
  function Pad(s: string): (p: string)
    ensures |p| >= |s| && p[..|s|] == s
    ensures IsGap(p[|s|..])
  {
    if |s| < 15 then s + seq(15 - |s|, i => ' ') else s
  }

  /** One line as `ripv2_route_output` prints it:
      `"%-15s\t%-15s\t%s\t%-15s\n"` of subnet, mask, gateway and metric. */
  function RouteLine(r: Route): string
  {
    Pad(AddrStr(r.subnet)) + ("\t" + (Pad(AddrStr(r.mask)) + ("\t" + (AddrStr(r.gw) + ("\t" + (Pad(Decimal(r.metric)) + "\n"))))))
  }

  /** The header line `ripv2_route_output` writes before the first route. */
  const HeaderLine := "#" + " SubnetAddr  \tSubnetMask  \tGateway  \tMetric\n"

  /** A route the text form can carry: as `ripv2_route_create` builds it,
      with a metric that is not 0 and fits the three digits of the
      four-character buffers that print and read it. */
  predicate Writable(r: Route)
  {
    r.family == DefaultFamily && r.tag == Unused && 1 <= r.metric <= 999
  }

  function Lines(routes: seq<Route>): (ls: seq<string>)
    ensures |ls| == |routes|
    ensures forall i :: 0 <= i < |routes| ==> ls[i] == RouteLine(routes[i])
  {
    seq(|routes|, i requires 0 <= i < |routes| => RouteLine(routes[i]))
  }

  lemma {:induction false} SpaceRunGap(g: string, rest: string)
    requires IsGap(g)
    ensures SpaceRun(g + rest) == |g| + SpaceRun(rest)
    decreases |g|
  {
    if |g| == 0 {
      assert g + rest == rest;
    } else {
      assert (g + rest)[1..] == g[1..] + rest;
      SpaceRunGap(g[1..], rest);
    }
  }

  lemma {:induction false} WordRunWord(w: string, rest: string)
    requires forall i :: 0 <= i < |w| ==> !IsSpace(w[i])
    requires |rest| > 0 && IsSpace(rest[0])
    ensures WordRun(w + rest) == |w|
    decreases |w|
  {
    if |w| == 0 {
      assert w + rest == rest;
    } else {
      assert (w + rest)[1..] == w[1..] + rest;
      WordRunWord(w[1..], rest);
    }
  }

  /** White space in front of the text does not change its fields. */
  lemma TokensGap(g: string, rest: string)
    requires IsGap(g)
    ensures Tokens(g + rest) == Tokens(rest)
  {
    SpaceRunGap(g, rest);
    assert (g + rest)[SpaceRun(g + rest)..] == rest[SpaceRun(rest)..];
  }

  /** A word followed by white space is the next field. */
  lemma TokensWord(w: string, g: string, rest: string)
    requires IsWord(w) && IsGap(g) && |g| > 0
    ensures Tokens(w + (g + rest)) == [w] + Tokens(rest)
  {
    var s := w + (g + rest);
    assert SpaceRun(s) == 0;
    assert s[0..] == s;
    WordRunWord(w, g + rest);
    assert s[..|w|] == w;
    assert s[|w|..] == g + rest;
    TokensGap(g, rest);
  }

  lemma DecimalIsWord(n: nat)
    ensures IsWord(Decimal(n))
  {
  }

  lemma AddrStrIsWord(a: Addr)
    ensures IsWord(AddrStr(a))
  {
    var s := AddrStr(a);
    var d0, d1, d2, d3 := Decimal(a[0]), Decimal(a[1]), Decimal(a[2]), Decimal(a[3]);
    assert s == d0 + "." + d1 + "." + d2 + "." + d3;
    forall i | 0 <= i < |s|
      ensures !IsSpace(s[i])
    {
      if i < |d0| {
        assert s[i] == d0[i];
      } else if i < |d0| + 1 + |d1| + 1 + |d2| + 1 {
        assert s[i] == (d0 + "." + d1 + "." + d2 + ".")[i];
      } else {
        assert s[i] == d3[i - (|d0| + 1 + |d1| + 1 + |d2| + 1)];
      }
    }
  }

  /** A field printed with `%-15s` and followed by a separator. */
  lemma TokensPad(w: string, sep: string, rest: string)
    requires IsWord(w) && IsGap(sep) && |sep| > 0
    ensures Tokens(Pad(w) + (sep + rest)) == [w] + Tokens(rest)
  {
    var p := Pad(w)[|w|..];
    assert Pad(w) == w + p;
    var g := p + sep;
    assert IsGap(g);
    assert Pad(w) + (sep + rest) == w + (g + rest);
    TokensWord(w, g, rest);
  }

  /** The four fields of a line laid out as `ripv2_route_output` prints. */
  lemma FieldsTokens(w0: string, w1: string, w2: string, w3: string)
    requires IsWord(w0) && IsWord(w1) && IsWord(w2) && IsWord(w3)
    ensures Tokens(Pad(w0) + ("\t" + (Pad(w1) + ("\t" + (w2 + ("\t" + (Pad(w3) + "\n"))))))) == [w0, w1, w2, w3]
  {
    LastThreeFieldsTokens(w1, w2, w3);
    TokensPad(w0, "\t", Pad(w1) + ("\t" + (w2 + ("\t" + (Pad(w3) + "\n")))));
    ConsFour(w0, w1, w2, w3);
  }

  lemma LastThreeFieldsTokens(w1: string, w2: string, w3: string)
    requires IsWord(w1) && IsWord(w2) && IsWord(w3)
    ensures Tokens(Pad(w1) + ("\t" + (w2 + ("\t" + (Pad(w3) + "\n"))))) == [w1, w2, w3]
  {
    LastTwoFieldsTokens(w2, w3);
    TokensPad(w1, "\t", w2 + ("\t" + (Pad(w3) + "\n")));
    assert [w1] + [w2, w3] == [w1, w2, w3];
  }

  lemma LastTwoFieldsTokens(w2: string, w3: string)
    requires IsWord(w2) && IsWord(w3)
    ensures Tokens(w2 + ("\t" + (Pad(w3) + "\n"))) == [w2, w3]
  {
    LastFieldTokens(w3);
    TokensWord(w2, "\t", Pad(w3) + "\n");
  }

  lemma LastFieldTokens(w3: string)
    requires IsWord(w3)
    ensures Tokens(Pad(w3) + "\n") == [w3]
  {
    assert Pad(w3) + "\n" == Pad(w3) + ("\n" + "");
    TokensPad(w3, "\n", "");
    assert Tokens("") == [];
  }

  /** The four fields of a printed route line. */
  lemma RouteLineTokens(r: Route)
    ensures Tokens(RouteLine(r)) == [AddrStr(r.subnet), AddrStr(r.mask), AddrStr(r.gw), Decimal(r.metric)]
  {
    AddrStrIsWord(r.subnet);
    AddrStrIsWord(r.mask);
    AddrStrIsWord(r.gw);
    DecimalIsWord(r.metric);
    FieldsTokens(AddrStr(r.subnet), AddrStr(r.mask), AddrStr(r.gw), Decimal(r.metric));
  }

  /** A line whose fields read as three addresses and a non-zero metric
      gives the route `ripv2_route_create` builds of them. */
  lemma RouteReadFields(line: string, subnet: Addr, mask: Addr, gw: Addr, metric: u32)
    requires |Tokens(line)| >= 4
    requires ParseAddr(Tokens(line)[0]) == Some(subnet) && ParseAddr(Tokens(line)[1]) == Some(mask)
    requires ParseAddr(Tokens(line)[2]) == Some(gw) && Atoi(Tokens(line)[3]) == metric && metric != 0
    ensures RouteRead(line) == Some(CreateRoute(subnet, mask, gw, metric))
  {
  }

  /** A printed route line reads back as the route. */
  lemma RouteLineRoundTrip(r: Route)
    requires Writable(r)
    ensures RouteRead(RouteLine(r)) == Some(r)
  {
    RouteLineTokens(r);
    AddrRoundTrip(r.subnet);
    AddrRoundTrip(r.mask);
    AddrRoundTrip(r.gw);
    AtoiDecimal(r.metric);
    ReadOfWords(RouteLine(r), AddrStr(r.subnet), AddrStr(r.mask), AddrStr(r.gw), Decimal(r.metric), r);
  }

  lemma AtoiDecimal(n: nat)
    ensures Atoi(Decimal(n)) == n
  {
    ScanDecimal(n, "");
    assert Decimal(n) + "" == Decimal(n);
  }

  lemma ReadOfWords(line: string, w0: string, w1: string, w2: string, w3: string, r: Route)
    requires Tokens(line) == [w0, w1, w2, w3]
    requires ParseAddr(w0) == Some(r.subnet) && ParseAddr(w1) == Some(r.mask) && ParseAddr(w2) == Some(r.gw)
    requires Atoi(w3) == r.metric && r.metric != 0 && r.family == DefaultFamily && r.tag == Unused
    ensures RouteRead(line) == Some(r)
  {
    RouteReadFields(line, r.subnet, r.mask, r.gw, r.metric);
  }

  /** A printed route line is not taken for a comment or an empty line. */
  lemma RouteLineNotSkipped(r: Route)
    ensures !IsSkipped(RouteLine(r))
  {
    AddrStrIsWord(r.subnet);
    var d := Decimal(r.subnet[0]);
    assert RouteLine(r)[0] == AddrStr(r.subnet)[0] == d[0];
  }

  lemma HeaderSkipped()
    ensures IsSkipped(HeaderLine)
  {
  }

  function Somes(routes: seq<Route>): (c: seq<Option<Route>>)
    ensures |c| == |routes| && forall i :: 0 <= i < |routes| ==> c[i] == Some(routes[i])
  {
    seq(|routes|, i requires 0 <= i < |routes| => Some(routes[i]))
  }

  lemma SomesCons(routes: seq<Route>)
    requires |routes| > 0
    ensures Somes(routes) == [Some(routes[0])] + Somes(routes[1..])
  {
  }

  /** Lines that are all read, none skipped, give their routes in order. */
  lemma {:induction false} ContentAllRead(lines: seq<string>, routes: seq<Route>)
    requires |lines| == |routes|
    requires forall i :: 0 <= i < |lines| ==> !IsSkipped(lines[i]) && RouteRead(lines[i]) == Some(routes[i])
    ensures Content(lines) == Somes(routes)
    decreases |lines|
  {
    if |lines| > 0 {
      ContentAllRead(lines[1..], routes[1..]);
      ContentAllStep(lines, routes);
    }
  }

  lemma ContentAllStep(lines: seq<string>, routes: seq<Route>)
    requires |lines| == |routes| > 0
    requires !IsSkipped(lines[0]) && RouteRead(lines[0]) == Some(routes[0])
    requires Content(lines[1..]) == Somes(routes[1..])
    ensures Content(lines) == Somes(routes)
  {
    ContentCons(lines);
    SomesCons(routes);
  }

  /** A table file written as `ripv2_route_table_output` lays it out (the
      header, then one line per route) is read back into the empty table:
      the routes land in the first slots in the same order, and the count
      is their number. */
  lemma WriteThenRead(routes: seq<Route>)
    requires |routes| <= Capacity
    requires forall i :: 0 <= i < |routes| ==> Writable(routes[i])
    ensures ReadTable(EmptyTable, [HeaderLine] + Lines(routes)) == ReadResult(Fill(routes), |routes|)
  {
    var ls := Lines(routes);
    LinesRead(routes);
    var lines := [HeaderLine] + ls;
    HeaderSkipped();
    assert lines[0] == HeaderLine && lines[1..] == ls;
    assert Content(lines) == Content(ls);
    ContentAllRead(ls, routes);
    var c := Content(lines);
    assert c == Somes(routes);
    assert Routes(c) == routes;
    assert Fill([]) == EmptyTable;
    ReadInOrder([], lines);
    assert [] + routes == routes;
  }

  lemma LinesRead(routes: seq<Route>)
    requires forall i :: 0 <= i < |routes| ==> Writable(routes[i])
    ensures forall i :: 0 <= i < |routes| ==> !IsSkipped(Lines(routes)[i]) && RouteRead(Lines(routes)[i]) == Some(routes[i])
  {
    forall i | 0 <= i < |routes|
      ensures !IsSkipped(Lines(routes)[i]) && RouteRead(Lines(routes)[i]) == Some(routes[i])
    {
      RouteLineNotSkipped(routes[i]);
      RouteLineRoundTrip(routes[i]);
    }
  }

  /** More good lines than the table has slots: the reading reports -1. */
  lemma TooManyRoutes(routes: seq<Route>)
    requires |routes| > Capacity
    requires forall i :: 0 <= i < |routes| ==> Writable(routes[i])
    ensures ReadTable(EmptyTable, Lines(routes)).count == -1
  {
    LinesRead(routes);
    ContentAllRead(Lines(routes), routes);
    ReadFailsIff(EmptyTable, Lines(routes));
  }
}

=== FILE: udp.dfy ===
/** The UDP layer of udp.c: the RFC 768 header `udp_send` puts in front of
    the payload (checksum 0), and the destination-port filter and copy rule
    of `udp_recv`, on top of the IPv4 layer. */
module Udp {
  import opened Wire
  import Ipv4

  const HeaderLen := 8
  /** IPv4 protocol number of UDP. */
  const Protocol := 0x11

  /** The UDP layer handle: the bound port and the IPv4 layer beneath
      (`udp_layer_t`). */
  datatype Layer = Layer(port: u16, ipv4: Ipv4.Layer)

  /** Source port, destination port, length (header plus payload, truncated
      to 16 bits by `htons`) and a zero checksum, in network byte order, then
      the payload. */
  function Datagram(srcPort: u16, dstPort: u16, payload: seq<byte>): (d: seq<byte>)
    ensures |d| == HeaderLen + |payload| && d[HeaderLen..] == payload
    ensures DecodeBe16(d[0..2]) == srcPort && DecodeBe16(d[2..4]) == dstPort
    ensures DecodeBe16(d[4..6]) == (HeaderLen + |payload|) % 0x1_0000 && d[6..8] == [0, 0]
  {
    var d := EncodeBe16(srcPort) + EncodeBe16(dstPort) + EncodeBe16((HeaderLen + |payload|) % 0x1_0000) + [0, 0] + payload;
    assert d[0..2] == EncodeBe16(srcPort);
    assert d[2..4] == EncodeBe16(dstPort);
    assert d[4..6] == EncodeBe16((HeaderLen + |payload|) % 0x1_0000);
    d
  }

  datatype SendResult = SendResult(code: int, ip: Option<Ipv4.SendResult>)

  /** `udp_send`: rejects a missing layer or an empty payload, otherwise
      hands the datagram to `ipv4_send` (whose environment is `route`,
      `arpCode`, `arpMac`, `linkSent`) with protocol 17 and returns -1 on its
      failure, else its result minus the UDP header. */
  function Send(layer: Option<Layer>, dst: Addr, portOut: u16, payload: seq<byte>,
                route: Option<Addr>, arpCode: int, arpMac: Mac, linkSent: int): (r: SendResult)
    ensures layer.None? || |payload| == 0 ==> r.code == -1 && r.ip.None?
    ensures r.ip.Some? ==>
              (layer.Some? &&
               r.ip.value == Ipv4.Send(Some(layer.value.ipv4), route, dst, Protocol,
                                       Datagram(layer.value.port, portOut, payload), arpCode, arpMac, linkSent))
    ensures r.ip.Some? ==> r.code == (if r.ip.value.code == -1 then -1 else r.ip.value.code - HeaderLen)
    ensures layer.Some? && |payload| > 0 ==> r.ip.Some?
  {
    if layer.None? || |payload| == 0 then SendResult(-1, None)
    else
      var ip := Ipv4.Send(Some(layer.value.ipv4), route, dst, Protocol,
                          Datagram(layer.value.port, portOut, payload), arpCode, arpMac, linkSent);
      SendResult(if ip.code == -1 then -1 else ip.code - HeaderLen, Some(ip))
  }

  /** When the route exists, the next hop resolves and the link sends the
      whole frame, `udp_send` returns the payload length. */
  lemma SendReturnsPayloadLength(layer: Layer, dst: Addr, portOut: u16, payload: seq<byte>, route: Addr, arpMac: Mac)
    requires |payload| > 0
    ensures Send(Some(layer), dst, portOut, payload, Some(route), 1, arpMac,
                 |payload| + HeaderLen + Ipv4.HeaderSize).code == |payload|
  {
    Ipv4.SendReturnsPayloadLength(layer.ipv4, route, dst, Protocol, Datagram(layer.port, portOut, payload), arpMac);
  }

  /** The value of `udp_recv`: -1, or the payload length with the sender's
      address and port and the copied bytes; Pending when the events run out
      first. `udp_recv` has no timeout outcome of its own. */
  datatype RecvOutcome = RecvError | Received(length: int, sender: Addr, port: u16, data: seq<byte>) | RecvPending

  datatype Reception = Reception(outcome: RecvOutcome, consumed: nat)

  /** The datagram an IPv4 reception delivered is for `port`. Bytes not
      delivered are treated as not matching. */
  predicate ForPort(port: u16, data: seq<byte>)
  {
    |data| >= 4 && DecodeBe16(data[2..4]) == port
  }

  /** The payload octets `udp_recv` copies: `min(bufferLen, length)` of
      them, none when negative, and never more than were delivered. */
  function Copied(data: seq<byte>, bufferLen: int, length: int): (c: seq<byte>)
    ensures |c| == 0 || |c| <= Min(bufferLen, length)
    ensures |data| >= HeaderLen ==> |c| <= |data| - HeaderLen
    ensures |data| >= HeaderLen ==> c == data[HeaderLen..HeaderLen + |c|]
    ensures |data| >= HeaderLen && 0 <= Min(bufferLen, length) <= |data| - HeaderLen ==> |c| == Min(bufferLen, length)
  {
    var n := Min(bufferLen, length);
    if n < 0 || |data| < HeaderLen then [] else data[HeaderLen..HeaderLen + Min(n, |data| - HeaderLen)]
  }

  /** One `ipv4_recv` call of `udp_recv`'s loop, on the events from some
      point on, with the buffer enlarged by the UDP header. */
  function IpRecv(layer: Layer, bufferLen: int, events: seq<Ipv4.LinkEvent>): Ipv4.Reception
  {
    Ipv4.Recv(layer.ipv4.addr, Protocol, bufferLen + HeaderLen, events)
  }

  /** An IPv4 reception the loop goes on after: an expired wait, or a
      datagram for another port. */
  predicate Passed(layer: Layer, ip: Ipv4.Reception)
  {
    ip.outcome.RecvTimeout? || (ip.outcome.Received? && !ForPort(layer.port, ip.outcome.data))
  }

  /** The first `i` events are used up by IPv4 receptions the loop goes on
      after, one after another. */
  predicate PassesTo(layer: Layer, bufferLen: int, events: seq<Ipv4.LinkEvent>, i: nat)
    decreases i
  {
    i == 0
    || (var ip := IpRecv(layer, bufferLen, events);
        Passed(layer, ip) && 0 < ip.consumed <= i && PassesTo(layer, bufferLen, events[ip.consumed..], i - ip.consumed))
  }

  /** The IPv4 reception that starts after `skipped` events and ends the
      loop, and what `udp_recv` returns for it: -1 for an IPv4 error; for a
      datagram to the bound port its length minus the UDP header, the
      sender's address and source port, and the copied payload. */
  predicate Ends(layer: Layer, bufferLen: int, rest: seq<Ipv4.LinkEvent>, skipped: nat, r: Reception)
  {
    var ip := IpRecv(layer, bufferLen, rest);
    match ip.outcome
    case RecvError => r == Reception(RecvError, skipped + ip.consumed)
    case RecvPending => r == Reception(RecvPending, skipped + ip.consumed)
    case RecvTimeout => false
    case Received(len, sender, data) =>
      ForPort(layer.port, data)
      && r == Reception(Received(len - HeaderLen, sender, DecodeBe16(data[0..2]), Copied(data, bufferLen, len - HeaderLen)),
                        skipped + ip.consumed)
  }

  /** `r` is what `udp_recv` makes of `events`: IPv4 receptions that are
      passed over, then the one that ends the loop. */
  predicate Explains(layer: Layer, bufferLen: int, events: seq<Ipv4.LinkEvent>, r: Reception)
  {
    exists i :: 0 <= i <= |events| && PassesTo(layer, bufferLen, events, i) && Ends(layer, bufferLen, events[i..], i, r)
  }

  lemma ExplainsFirst(layer: Layer, bufferLen: int, events: seq<Ipv4.LinkEvent>, r: Reception)
    requires Ends(layer, bufferLen, events, 0, r)
    ensures Explains(layer, bufferLen, events, r)
  {
    assert events[0..] == events;
    assert PassesTo(layer, bufferLen, events, 0);
  }

  lemma ExplainsAfterPassed(layer: Layer, bufferLen: int, events: seq<Ipv4.LinkEvent>, r: Reception)
    requires Passed(layer, IpRecv(layer, bufferLen, events))
    requires var c := IpRecv(layer, bufferLen, events).consumed;
             0 < c <= |events| && Explains(layer, bufferLen, events[c..], r)
    ensures var c := IpRecv(layer, bufferLen, events).consumed;
            Explains(layer, bufferLen, events, Reception(r.outcome, r.consumed + c))
  {
    var c := IpRecv(layer, bufferLen, events).consumed;
    var i :| 0 <= i <= |events[c..]| && PassesTo(layer, bufferLen, events[c..], i) && Ends(layer, bufferLen, events[c..][i..], i, r);
    assert PassesTo(layer, bufferLen, events, c + i);
    assert events[c + i..] == events[c..][i..];
    assert Ends(layer, bufferLen, events[c + i..], c + i, Reception(r.outcome, r.consumed + c));
  }

  /** The receive loop of `udp_recv` over the link events: each IPv4
      reception (buffer enlarged by the UDP header) is kept only if its
      destination port is the bound port. An IPv4 timeout continues the
      loop. */
  function RecvLoop(layer: Layer, bufferLen: int, events: seq<Ipv4.LinkEvent>): (r: Reception)
    ensures r.consumed <= |events|
    ensures r.outcome.Received? ==> |r.outcome.data| == 0 || |r.outcome.data| <= bufferLen
    ensures Explains(layer, bufferLen, events, r)
    decreases |events|
  {
    var ip := IpRecv(layer, bufferLen, events);
    if Passed(layer, ip) then
      var r := RecvLoop(layer, bufferLen, events[ip.consumed..]);
      ExplainsAfterPassed(layer, bufferLen, events, r);
      Reception(r.outcome, r.consumed + ip.consumed)
    else
      var r :=
        if ip.outcome.RecvError? then Reception(RecvError, ip.consumed)
        else if ip.outcome.RecvPending? then Reception(RecvPending, ip.consumed)
        else
          var len, data := ip.outcome.length, ip.outcome.data;
          Reception(Received(len - HeaderLen, ip.outcome.sender, DecodeBe16(data[0..2]), Copied(data, bufferLen, len - HeaderLen)),
                    ip.consumed);
      ExplainsFirst(layer, bufferLen, events, r);
      r
  }

  /** The loop's result after passed-over receptions is the result for the
      events after them: together with the contract of `RecvLoop`, the
      reception that ends the loop is the first one not passed over. */
  lemma {:induction false} RecvLoopAfterPassed(layer: Layer, bufferLen: int, events: seq<Ipv4.LinkEvent>, i: nat)
    requires i <= |events| && PassesTo(layer, bufferLen, events, i)
    ensures var r := RecvLoop(layer, bufferLen, events);
            var q := RecvLoop(layer, bufferLen, events[i..]);
            r.outcome == q.outcome && r.consumed == i + q.consumed
    decreases i
  {
    if i == 0 {
      assert events[0..] == events;
    } else {
      var c := IpRecv(layer, bufferLen, events).consumed;
      assert Passed(layer, IpRecv(layer, bufferLen, events)) && 0 < c <= i;
      assert PassesTo(layer, bufferLen, events[c..], i - c);
      RecvLoopAfterPassed(layer, bufferLen, events[c..], i - c);
      RecvLoopPassedStep(layer, bufferLen, events);
      assert events[c..][i - c..] == events[i..];
    }
  }

  /** After a reception the loop passes over, the loop goes on with the
      events that follow it. */
  lemma RecvLoopPassedStep(layer: Layer, bufferLen: int, events: seq<Ipv4.LinkEvent>)
    requires Passed(layer, IpRecv(layer, bufferLen, events))
    ensures var c := IpRecv(layer, bufferLen, events).consumed;
            var q := RecvLoop(layer, bufferLen, events[c..]);
            RecvLoop(layer, bufferLen, events) == Reception(q.outcome, q.consumed + c)
  {
  }

  /** `udp_recv` fails exactly when, after receptions it passes over, the
      IPv4 layer reports an error. */
  lemma ErrorIffIpv4Error(layer: Layer, bufferLen: int, events: seq<Ipv4.LinkEvent>)
    ensures RecvLoop(layer, bufferLen, events).outcome.RecvError?
        <==> exists i :: 0 <= i <= |events| && PassesTo(layer, bufferLen, events, i)
                         && IpRecv(layer, bufferLen, events[i..]).outcome.RecvError?
  {
    var r := RecvLoop(layer, bufferLen, events);
    if exists i :: 0 <= i <= |events| && PassesTo(layer, bufferLen, events, i)
                   && IpRecv(layer, bufferLen, events[i..]).outcome.RecvError? {
      var i :| 0 <= i <= |events| && PassesTo(layer, bufferLen, events, i)
               && IpRecv(layer, bufferLen, events[i..]).outcome.RecvError?;
      RecvLoopAfterPassed(layer, bufferLen, events, i);
    }
  }

  /** `udp_recv`: a missing layer or a non-positive buffer length is an
      error before anything is received. */
  function Recv(layer: Option<Layer>, bufferLen: int, events: seq<Ipv4.LinkEvent>): (r: Reception)
    ensures layer.None? || bufferLen <= 0 ==> r == Reception(RecvError, 0)
    ensures layer.Some? && bufferLen > 0 ==> Explains(layer.value, bufferLen, events, r)
    ensures r.consumed <= |events|
    ensures r.outcome.Received? ==> |r.outcome.data| <= bufferLen
  {
    if layer.None? || bufferLen <= 0 then Reception(RecvError, 0)
    else RecvLoop(layer.value, bufferLen, events)
  }

  /** An IPv4 reception whose datagram is for another port is discarded and
      the wait goes on: only the count of consumed events changes. */
  lemma OtherPortSkipped(layer: Layer, bufferLen: int, frame: seq<byte>, events: seq<Ipv4.LinkEvent>)
    requires Ipv4.Accepts(layer.ipv4.addr, Protocol, frame)
    requires !ForPort(layer.port, Ipv4.Copied(frame, bufferLen + HeaderLen))
    ensures var r := RecvLoop(layer, bufferLen, [Ipv4.LinkFrame(frame)] + events);
            var s := RecvLoop(layer, bufferLen, events);
            r.outcome == s.outcome && r.consumed == s.consumed + 1
  {
    assert ([Ipv4.LinkFrame(frame)] + events)[1..] == events;
  }

  /** A datagram built by `udp_send` for the bound port, carried in a
      datagram built by `ipv4_send` for the local address, is received whole:
      its payload length, the sender's address and port, and as much of the
      payload as the buffer holds. */
  lemma RecvSentDatagram(layer: Layer, src: Addr, srcPort: u16, payload: seq<byte>, bufferLen: int, events: seq<Ipv4.LinkEvent>)
    requires |payload| + HeaderLen + Ipv4.HeaderSize < 0x1_0000
    requires bufferLen > 0
    ensures var u := Datagram(srcPort, layer.port, payload);
            var f := Ipv4.Datagram(src, layer.ipv4.addr, Protocol, u);
            Recv(Some(layer), bufferLen, [Ipv4.LinkFrame(f)] + events)
              == Reception(Received(|payload|, src, srcPort, payload[..Min(bufferLen, |payload|)]), 1)
  {
    var u := Datagram(srcPort, layer.port, payload);
    var f := Ipv4.Datagram(src, layer.ipv4.addr, Protocol, u);
    Ipv4.RecvSentDatagram(src, layer.ipv4.addr, Protocol, u, bufferLen + HeaderLen, events);
    RecvCarried(layer, src, srcPort, u, payload, bufferLen, [Ipv4.LinkFrame(f)] + events);
  }

  lemma RecvCarried(layer: Layer, src: Addr, srcPort: u16, u: seq<byte>, payload: seq<byte>, bufferLen: int, evs: seq<Ipv4.LinkEvent>)
    requires bufferLen > 0 && |u| == HeaderLen + |payload| && u[HeaderLen..] == payload
    requires DecodeBe16(u[0..2]) == srcPort && DecodeBe16(u[2..4]) == layer.port
    requires Ipv4.Recv(layer.ipv4.addr, Protocol, bufferLen + HeaderLen, evs)
          == Ipv4.Reception(Ipv4.Received(|u|, src, u[..Min(bufferLen + HeaderLen, |u|)]), 1)
    ensures Recv(Some(layer), bufferLen, evs) == Reception(Received(|payload|, src, srcPort, payload[..Min(bufferLen, |payload|)]), 1)
  {
    var data := u[..Min(bufferLen + HeaderLen, |u|)];
    assert ForPort(layer.port, data) && DecodeBe16(data[0..2]) == srcPort by {
      assert data[0..2] == u[0..2] && data[2..4] == u[2..4];
    }
    CopiedPayload(u, data, payload, bufferLen);
    LoopTakesMatching(layer, bufferLen, evs, |u|, src, data);
  }

  lemma LoopTakesMatching(layer: Layer, bufferLen: int, evs: seq<Ipv4.LinkEvent>, len: int, sender: Addr, data: seq<byte>)
    requires Ipv4.Recv(layer.ipv4.addr, Protocol, bufferLen + HeaderLen, evs) == Ipv4.Reception(Ipv4.Received(len, sender, data), 1)
    requires ForPort(layer.port, data)
    ensures RecvLoop(layer, bufferLen, evs)
         == Reception(Received(len - HeaderLen, sender, DecodeBe16(data[0..2]), Copied(data, bufferLen, len - HeaderLen)), 1)
  {
  }

  lemma CopiedPayload(u: seq<byte>, data: seq<byte>, payload: seq<byte>, bufferLen: int)
    requires bufferLen > 0 && |u| == HeaderLen + |payload| && u[HeaderLen..] == payload
    requires data == u[..Min(bufferLen + HeaderLen, |u|)]
    ensures Copied(data, bufferLen, |u| - HeaderLen) == payload[..Min(bufferLen, |payload|)]
  {
    assert data[HeaderLen..] == payload[..Min(bufferLen, |payload|)];
  }
}

=== FILE: wire.dfy ===
/** Shared vocabulary of the stack: bytes, addresses, optional values and the
    big-endian (network byte order) encoding of 16- and 32-bit fields. */
module Wire {

  /** The conventional Some/None datatype, used where the C code returns NULL. */
  datatype Option<+T> = None | Some(value: T)

  type byte = n: int | 0 <= n < 0x100
  type u16 = n: int | 0 <= n < 0x1_0000
  type u32 = n: int | 0 <= n < 0x1_0000_0000

  /** An IPv4 address: four octets, most significant first (`ipv4_addr_t`). */
  type Addr = s: seq<byte> | |s| == 4 witness [0, 0, 0, 0]

  /** A link-layer (Ethernet) address: six octets (`mac_addr_t`). */
  type Mac = s: seq<byte> | |s| == 6 witness [0, 0, 0, 0, 0, 0]

  /** 0.0.0.0, "this network" / "no gateway". */
  const ZeroAddr: Addr := [0, 0, 0, 0]

  /** 00:00:00:00:00:00, the "unknown" link address of an ARP request. */
  const UnknownMac: Mac := [0, 0, 0, 0, 0, 0]

  function Min(a: int, b: int): int
  {
    if a <= b then a else b
  }

  /** Conversion of an integer to `uint32_t`: its value modulo 2^32. */
  function ToU32(x: int): (r: u32)
    ensures 0 <= x < 0x1_0000_0000 ==> r == x
    ensures (r - x) % 0x1_0000_0000 == 0
  {
    x % 0x1_0000_0000
  }

  /** Value of two octets read in network byte order. */
  function DecodeBe16(b: seq<byte>): (n: u16)
    requires |b| == 2
  {
    b[0] as int * 0x100 + b[1] as int
  }

  /** `htons`: a 16-bit value laid out in network byte order. */
  function EncodeBe16(n: u16): (b: seq<byte>)
    ensures |b| == 2
    ensures DecodeBe16(b) == n
  {
    [n / 0x100, n % 0x100]
  }

  /** Value of four octets read in network byte order. */
  function DecodeBe32(b: seq<byte>): (n: u32)
    requires |b| == 4
  {
    DecodeBe16(b[..2]) as int * 0x1_0000 + DecodeBe16(b[2..]) as int
  }

  /** `htonl`: a 32-bit value laid out in network byte order. */
  function EncodeBe32(n: u32): (b: seq<byte>)
    ensures |b| == 4
    ensures DecodeBe32(b) == n
  {
    var b := EncodeBe16(n / 0x1_0000) + EncodeBe16(n % 0x1_0000);
    assert b[..2] == EncodeBe16(n / 0x1_0000) && b[2..] == EncodeBe16(n % 0x1_0000);
    b
  }

  /** Decoding a 16-bit field and encoding it again gives back the octets. */
  lemma Be16Injective(b: seq<byte>)
    requires |b| == 2
    ensures EncodeBe16(DecodeBe16(b)) == b
  {
  }

  /** The 32-bit byte swap (`ntohl`/`htonl` on a little-endian host): the
      octets of `n` reversed. */
  function Swap32(n: u32): (r: u32)
    ensures EncodeBe32(r) == Reverse4(EncodeBe32(n))
  {
    var b := EncodeBe32(n);
    var r := DecodeBe32(Reverse4(b));
    Be32Injective(Reverse4(b));
    r
  }

  /** The 16-bit byte swap (`ntohs`/`htons` on a little-endian host). */
  function Swap16(n: u16): (r: u16)
    ensures EncodeBe16(r) == [EncodeBe16(n)[1], EncodeBe16(n)[0]]
  {
    (n % 0x100) * 0x100 + n / 0x100
  }

  function Reverse4(b: seq<byte>): (r: seq<byte>)
    requires |b| == 4
    ensures |r| == 4
  {
    [b[3], b[2], b[1], b[0]]
  }

  lemma Be32Injective(b: seq<byte>)
    requires |b| == 4
    ensures EncodeBe32(DecodeBe32(b)) == b
  {
    var hi := DecodeBe16(b[..2]);
    var lo := DecodeBe16(b[2..]);
    assert DecodeBe32(b) / 0x1_0000 == hi;
    assert DecodeBe32(b) % 0x1_0000 == lo;
    Be16Injective(b[..2]);
    Be16Injective(b[2..]);
    assert b == b[..2] + b[2..];
  }

  /** A four-element sequence is its head followed by its tail. */
  lemma ConsFour<T>(a: T, b: T, c: T, d: T)
    ensures [a] + [b, c, d] == [a, b, c, d]
  {
  }

  /** The middle part of a concatenation sits right after the front part. */
  lemma MiddleSlice<T>(front: seq<T>, middle: seq<T>, back: seq<T>)
    ensures (front + middle + back)[|front|..|front| + |middle|] == middle
  {
  }

  /** Reducing a value already below the modulus changes nothing. */
  lemma BelowModulus(n: int, m: int)
    requires 0 <= n < m
    ensures n % m == n
  {
  }
}
